=== FILE: README.md ===
# mongodb-dumper translation engine, in Dafny

This project models the part of the mongodb-dumper sync service that turns
the records of a BitClout Badger store into MongoDB upserts
(`mongodb/sync_service.go`). It has four parts, each in its own module.

- **Value normaliser** (`Normalizer`, `NormalizerFacts`). This is
  `SimplifyMap`, which rewrites a decoded field map. Some rewrites depend on
  the value's type: hashes and `UtxoType` become strings, nil pointers become
  null, a `*BlockNode` back-reference becomes `ParentHash`, and stake entries
  are deleted. Others depend on the field's name: public keys and PKIDs
  become display strings, text fields become strings, and `ParentStakeID`
  becomes hex. Finally `Time` is stamped.
  - The canonical definition (`SimplifyMap`) processes the map's initial key
    set all at once.
  - Go's `range` loop is modelled as a fold over an explicit key order
    (`FoldKeys`).
  - `IterationOrderIrrelevant` proves that every order gives the canonical
    result.
- **Prefix dispatcher** (`Dispatcher`, `DispatcherFacts`). This is
  `BadgerItrToJSON`. It reads the key's first byte as a table tag, then
  does one of three things. It decodes the value with a foreign decoder, or
  builds a single-value document, or slices the packed key at that table's
  fixed offsets. It then attaches the `MongoMeta` and `BadgerKeyPrefix`
  literals. Every outcome is one of three:
  - a document;
  - no document (unknown tag, failed value read, failed decode or failed
    marshal);
  - a Go panic, such as a short key slice, `DecodeUint64` on fewer than 8
    bytes, the nil-pointer slice of tag 14, or a type assertion on a map of
    the wrong shape.
- **Sync loop** (`SyncLoop`). This is the iterator loop of
  `SyncingService.Start`. Each record that yields a document becomes an
  upsert whose `_id` is the raw key read as a string. The upserts are sent
  in unordered bulk writes of at most 1000. Whatever is still buffered at
  the end of the pass is sent too. A panic ends the process, so the partial
  batch is lost.
- **Two passes** (`TwoPasses`). The service re-runs the pass over an
  unchanged store, and only the clock changes between runs. The two runs
  give every record the same outcome, and documents with the same keys that
  agree everywhere except in their `Time` stamps, at any depth
  (`DocumentBesidesTime`). So the same records panic (`PassesPanicAlike`),
  and the `_id`s are those of `OpIdentifiesRecord`.

Supporting modules:
- `Bytes`: big-endian integers, lowercase hex, Go's `string([]byte)`, and
  copies into a 32-byte hash.
- `Values`: the dynamic `interface{}` values of a field map, and the
  `Foreign` record of library functions. The model takes these as
  parameters and does not define them.
- `Wrappers`: `Option`.

Some literals are quirks of the code, and the model keeps them as written:
- tag 16 is labelled `_KeyAccountData:13`;
- tag 23 is labelled `_PrefixProfilePubKeyToProfileEntry:23`;
- tag 40 is labelled `_KeyGlobalPArams`, with no `:40`;
- tag 31 reads both `PublicKey` and `LikedPostHash` from bytes 1 to 34 of
  the key (`LikedPostFields`);
- the `:N` suffix of every other label is that table's own tag
  (`PrefixesNameTheirTag`).

Three behaviours of the code that are easy to miss, kept as written:
- A document does not always carry `MongoMeta`. Tags 9, 13 and 16 have
  none (`DocumentLabels`).
- Tag 40 never normalises, so it has no `Time` of its own (`DocumentTime`,
  `GlobalParamsUntouched`).
- Normalising an already normalised map is not always possible. When the
  map had a non-nil byte-named field, that field is now a string, and the
  second pass panics on the name switch's `[]byte` or `*lib.PKID` assertion
  (`SecondPassPanics`). When the normalised map has no such field, a second
  pass only refreshes the `Time` stamps, at every depth (`SimplifyTwice`).

## Model

| member | source | states |
|---|---|---|
| Bytes.BigEndianRoundTrip | mongodb/sync_service.go:308 | reading back the `width`-byte big-endian encoding of any `n < 256^width` gives `n` |
| Bytes.ToBigEndianRoundTrip | mongodb/sync_service.go:308 | every byte string is the big-endian encoding of the integer it reads as |
| Bytes.Uint32 | mongodb/sync_service.go:308 | `binary.BigEndian.Uint32` of at least 4 bytes is below 2^32, and its 4-byte encoding is exactly the first four bytes |
| Bytes.DecodeUint64 | mongodb/sync_service.go:323 | `DecodeUint64` of at least 8 bytes is below 2^64, and its 8-byte encoding is exactly the first eight bytes |
| Bytes.HexEncode | mongodb/sync_service.go:145-146 | `hex.EncodeToString` has twice the input's length and uses only lowercase hex digits |
| Bytes.HexRoundTrip | mongodb/sync_service.go:145-146 | decoding the hex string gives the original bytes back |
| Bytes.GoStringRoundTrip | mongodb/sync_service.go:846 | `string(key)` holds only byte-sized characters, and converting it back gives the key |
| Bytes.GoStringInjective | mongodb/sync_service.go:846 | two keys give the same `_id` string iff they are equal |
| Bytes.CopyHash | mongodb/sync_service.go:199 | `copy(hash[:], src)` gives 32 bytes: the first min(32, len(src)) are src's, the rest zero |
| Bytes.CopyHashExact | mongodb/sync_service.go:306 | copying exactly 32 bytes into a hash reproduces them |
| Bytes.ValueCopyHash | mongodb/sync_service.go:237-241 | a value of at most 32 bytes lands at the front of the zeroed hash and the bytes after it stay zero, the same as Go's `copy`; a longer one leaves the hash all zero |
| Normalizer.ParentValue | mongodb/sync_service.go:104-111 | the flattened parent is a string, and it is null iff the `*BlockNode` is nil |
| Normalizer.TypeRewrite | mongodb/sync_service.go:88-120 | the type switch keeps an entry iff it is neither a stake entry nor a block node; a hash, `UtxoType` or non-nil pointer becomes a string; a nested map stays a map |
| Normalizer.HeaderFix | mongodb/sync_service.go:149-157 | the `Header` fix turns both header hashes into strings, keeps the key set, and leaves the other entries alone |
| Normalizer.Processed | mongodb/sync_service.go:88-170 | a kept entry whose name is not byte-named and whose value becomes a string ends up a string |
| Normalizer.Parents | mongodb/sync_service.go:104-111 | `ParentHash` is added iff some visited entry is a `*BlockNode`, and nothing else is added |
| Normalizer.SimplifyMap | mongodb/sync_service.go:81-172 | `Time` holds the timestamp, and every non-byte-named entry whose value becomes a string is present as a string |
| NormalizerFacts.StepVisited | mongodb/sync_service.go:83-170 | one loop iteration on the canonical state for the visited set S gives the canonical state for S plus that key |
| NormalizerFacts.FoldVisited | mongodb/sync_service.go:83-170 | folding the loop body over any duplicate-free key order equals the canonical result for the keys visited |
| NormalizerFacts.IterationOrderIrrelevant | mongodb/sync_service.go:83-171 | every iteration order of the map gives the same result as `SimplifyMap` |
| NormalizerFacts.SimplifyMapKeys | mongodb/sync_service.go:83-171 | the result's keys are the kept keys plus `Time`, plus `ParentHash` iff the map had a block node |
| NormalizerFacts.KeySwitchNames | mongodb/sync_service.go:124-169 | each arm of the name switch is chosen for exactly the field names listed in that `case` |
| NormalizerFacts.NilEntriesUntouched | mongodb/sync_service.go:84-86 | a nil entry is left as null |
| NormalizerFacts.HandlesBecomeStrings | mongodb/sync_service.go:93-117 | nil `*BlockHash`/`*big.Int` become null; non-nil ones, `BlockHash` and `UtxoType` become their `String()` |
| NormalizerFacts.StakeEntriesDeleted | mongodb/sync_service.go:118-119 | a `StakeEntry` field is deleted |
| NormalizerFacts.BlockNodeFlattened | mongodb/sync_service.go:104-111 | a `*BlockNode` field is removed, and `ParentHash` is the parent's hash string, or null for a nil parent |
| NormalizerFacts.ParentStakeIDHex | mongodb/sync_service.go:145-146 | `ParentStakeID` becomes lowercase hex of length 2n that decodes back to the original bytes |
| NormalizerFacts.TextFieldsAsStrings | mongodb/sync_service.go:147-168 | `Body`, `EncryptedText`, `Username`, `Description` and `ProfilePic` become strings that read back as the original bytes |
| NormalizerFacts.PublicKeyBytesAsStrings | mongodb/sync_service.go:124-137 | the public-key-named byte fields become `PkToStringBoth` of their bytes |
| NormalizerFacts.PKIDPointersAsStrings | mongodb/sync_service.go:127-144 | `HODLerPKID` and `CreatorPKID` become `PkToStringBoth` of the PKID's bytes |
| NormalizerFacts.NestedMapsNormalised | mongodb/sync_service.go:89-92 | a nested map is normalised recursively, including its own `Time` stamp |
| NormalizerFacts.TxnsUnchanged | mongodb/sync_service.go:158-160 | `Txns` is kept as the same list |
| NormalizerFacts.HeaderHashesAsStrings | mongodb/sync_service.go:149-157 | `Header` is normalised, and both of its hashes end up as strings |
| NormalizerFacts.SecondPassPanics | mongodb/sync_service.go:124-168 | after one pass, a non-nil byte-named field is a string, so a second pass's `[]byte` or `*lib.PKID` assertion fails |
| Dispatcher.Simplified | mongodb/sync_service.go:81-172 | normalising panics iff a type assertion fails or two `*BlockNode` entries disagree on the parent (see Left out); otherwise `Time` is the timestamp |
| Dispatcher.SimplifiedThenLabelled | mongodb/sync_service.go:201-206 | normalise-then-label gives a document iff the decoded map has the expected shape |
| Dispatcher.LabelledThenSimplified | mongodb/sync_service.go:462-474 | label-then-normalise gives a document iff the labelled map has the expected shape |
| Dispatcher.DecodedDocument | mongodb/sync_service.go:190-789 | a decoded record yields no document exactly when its decoder fails |
| Dispatcher.ValueDocument | mongodb/sync_service.go:237-609 | a single-value record always yields something; it panics exactly for tag 14, or for a counter shorter than 8 bytes |
| Dispatcher.KeyDocument | mongodb/sync_service.go:303-757 | a key-layout record always yields something, and it panics when the key is shorter than the layout needs |
| Dispatcher.BadgerItrToJSON | mongodb/sync_service.go:176-790 | JSON is produced iff there is a document and it marshals; it panics exactly when building the document panics |
| DispatcherFacts.TagFamilies | mongodb/sync_service.go:190-789 | the switch's tags are exactly the decoded, single-value and key-layout tags, and no tag is in two families |
| DispatcherFacts.EmptyKeyPanics | mongodb/sync_service.go:177-178 | an empty key panics at `key[0]` |
| DispatcherFacts.NoDocumentExactly | mongodb/sync_service.go:185-198 | no document iff the value read fails, the tag is unknown, or a decoded tag's decoder fails |
| DispatcherFacts.UnknownTagSkipped | mongodb/sync_service.go:787-789 | a tag outside 0–37, 39, 40 yields no document and no JSON, whatever the value |
| DispatcherFacts.TransactionIndexTipPanics | mongodb/sync_service.go:402-406 | tag 14 always panics, because it slices a nil `*BlockHash` |
| DispatcherFacts.KeyFieldsShaped | mongodb/sync_service.go:303-757 | every key layout, long enough for its offsets, builds a map with the shape the normaliser expects, before and after labelling |
| DispatcherFacts.KeyLayoutPanicsExactly | mongodb/sync_service.go:303-757 | a key-layout record panics iff its key is shorter than that layout's largest offset, and otherwise yields a document |
| DispatcherFacts.DocumentLabels | mongodb/sync_service.go:176-790 | every document carries its tag's `BadgerKeyPrefix`; it has `MongoMeta` iff the tag is not 9, 13 or 16, and then with the tag's text |
| DispatcherFacts.DocumentTime | mongodb/sync_service.go:774-786 | every document except tag 40's has `Time` = the timestamp; tag 40's `Time` is whatever the decoded entry held |
| DispatcherFacts.PrefixTags | mongodb/sync_service.go:436-444 | every label but tag 40's carries a tag number; it is the record's own tag except for 16, which reuses 13's label |
| DispatcherFacts.NamesOneTag | mongodb/sync_service.go:436-444 | a label's `:N` suffix names at most one tag |
| DispatcherFacts.GlobalParamsPrefixUntagged | mongodb/sync_service.go:783-784 | tag 40's label names no tag at all |
| DispatcherFacts.PrefixesNameTheirTag | mongodb/sync_service.go:436-444 | a label ends in `:t` for its own tag t iff t is not 16 or 40 |
| DispatcherFacts.PrefixesDistinguishTables | mongodb/sync_service.go:389-444 | two different known tags have equal labels iff they are 13 and 16 |
| DispatcherFacts.KeyDocumentAt | mongodb/sync_service.go:462-757 | each field a key layout builds appears in the document, normalised |
| DispatcherFacts.KeyTagDispatch | mongodb/sync_service.go:303-757 | records of a key-layout tag are handled by the key layouts |
| DispatcherFacts.ValueTagDispatch | mongodb/sync_service.go:237-609 | records of a single-value tag are handled by the single-value cases |
| DispatcherFacts.DecodedTagDispatch | mongodb/sync_service.go:190-789 | records of a decoded tag are handled by the decoded-record cases |
| DispatcherFacts.PubKeyUtxoKeyLayout | mongodb/sync_service.go:303-320 | tag 7: `PublicKey` from `key[1:34]`, `TxID` the hash `key[34:66]`, `Index` the big-endian uint32 at 66 |
| DispatcherFacts.CommentParentLayout | mongodb/sync_service.go:522-533 | tag 22: `ParentStakeID` is hex that decodes back to `key[1:34]` |
| DispatcherFacts.CommentTimestamp | mongodb/sync_service.go:522-533 | tag 22: `TstampNanos` is the big-endian integer `key[34:42]` |
| DispatcherFacts.CommentPostHash | mongodb/sync_service.go:522-533 | tag 22: `PostHash` is the hash copied from `key[42:]`, exactly those bytes when they number 32 |
| DispatcherFacts.UsernameLayout | mongodb/sync_service.go:566-577 | tag 25: `Username` reads back as `key[1:]`, and `PKID` is `PkToStringBoth` of the value |
| DispatcherFacts.StakeIndexLayout | mongodb/sync_service.go:579-595 | tag 26: `StakeType` is "Post" iff `key[1] == 0`, else "Profile"; `AmountNanos` is `key[2:10]`; `StakeID` is `key[10:]` |
| DispatcherFacts.CounterValue | mongodb/sync_service.go:322-356 | counters 8, 10, 27 panic iff the value is shorter than 8 bytes; otherwise the count's 8-byte encoding is the value's first 8 bytes |
| DispatcherFacts.TipValue | mongodb/sync_service.go:237-269 | tags 3, 4: `Hash` is the string of the value zero-padded to 32 bytes, or of the zero hash when the value is longer |
| DispatcherFacts.PlaceholderValue | mongodb/sync_service.go:335-342 | tags 9, 13, 16: the document holds only `BadgerKeyPrefix` and `Time`, whatever the value |
| DispatcherFacts.DecodedRecordNormalised | mongodb/sync_service.go:271-301 | a decoded record yields a document iff its map has the expected shape; apart from the labels, the document is the normalised map |
| DispatcherFacts.BlockRecordHash | mongodb/sync_service.go:191-208 | tag 0: `BlockHash` is the hash copied from the key after the tag |
| DispatcherFacts.PublicKeyToPKIDRecord | mongodb/sync_service.go:724-746 | tag 36 panics without a non-nil `*PKID`; otherwise `PKID` is `PkToStringBoth` of its bytes |
| DispatcherFacts.GlobalParamsUntouched | mongodb/sync_service.go:774-786 | tag 40 always yields the decoded fields untouched, plus the two labels, and nothing else |
| SyncLoop.RecordOp | mongodb/sync_service.go:832-850 | a record's step panics iff its document does, and the upsert's `_id` is the key as a string |
| SyncLoop.OpIdentifiesRecord | mongodb/sync_service.go:846 | the `_id` gives the key back, and two records share an `_id` iff they share a key |
| SyncLoop.OpSetsDocument | mongodb/sync_service.go:837-847 | when JSON round-trips, a record gives an upsert iff it has a marshalable document, and `$set` is that document |
| SyncLoop.UnknownTagNoOp | mongodb/sync_service.go:832-835 | a record of an unknown table gives no upsert |
| SyncLoop.Scan | mongodb/sync_service.go:813-851 | the pass yields at most one operation per record |
| SyncLoop.ScanPanicsExactly | mongodb/sync_service.go:813-851 | the pass panics iff some record's translation panics |
| SyncLoop.ScanOpsFromRecords | mongodb/sync_service.go:813-851 | every operation of the pass is some record's upsert |
| SyncLoop.ScanSnoc | mongodb/sync_service.go:813-851 | one more record adds its upsert at the end, adds nothing, or ends the pass with a panic |
| SyncLoop.ScanPrefixPanics | mongodb/sync_service.go:813-851 | records after a panic change nothing |
| SyncLoop.Chunks | mongodb/sync_service.go:815-829 | every batch holds 1 to 1000 operations, all but the last exactly 1000, and the batches concatenate to the operations |
| SyncLoop.ChunkCount | mongodb/sync_service.go:807-861 | N operations make ceil(N/1000) bulk writes |
| SyncLoop.ChunksAppend | mongodb/sync_service.go:815-829 | batching a prefix of whole batches first does not change the batches |
| SyncLoop.Written | mongodb/sync_service.go:813-861 | a completed pass writes all its operations in order; a panicking pass writes a prefix, missing fewer than 1000; every batch has 1 to 1000 operations |
| SyncLoop.BulkLoop | mongodb/sync_service.go:807-861 | the counter/reset loop with its final flush writes exactly `Written`'s batches, and panics iff the scan does |
| SyncLoop.SyncPass | mongodb/sync_service.go:802-861 | one pass panics iff some record's document panics, and writes `Written`'s batches |
| SyncLoop.WrittenOpsFromRecords | mongodb/sync_service.go:844-849 | every written operation upserts some record's document under that record's key |
| TwoPasses.ShapedBesidesTime | mongodb/sync_service.go:81-172 | two maps that differ only in `Time` stamps make the normaliser panic alike: one is shaped iff the other is |
| TwoPasses.ProcessedBesidesTime | mongodb/sync_service.go:83-170 | an entry processed in two passes with different clocks gives the same value, or two `Time` stamps, or nested maps that agree apart from stamps |
| TwoPasses.SimplifyBesidesTime | mongodb/sync_service.go:81-172 | normalising two such maps with any two clocks gives maps with the same keys that agree apart from `Time` stamps, at any depth |
| TwoPasses.KeyFieldsBesidesTime | mongodb/sync_service.go:358-372 | the key layouts of two passes differ at most in the `Time` of the two stamped layouts, tags 11 and 28 |
| TwoPasses.DecodedBesidesTime | mongodb/sync_service.go:190-789 | a decoded record gives the same outcome in two passes, and documents that agree apart from `Time` |
| TwoPasses.ValueBesidesTime | mongodb/sync_service.go:237-609 | a single-value record gives the same outcome in two passes, and documents that agree apart from `Time` |
| TwoPasses.KeyBesidesTime | mongodb/sync_service.go:303-757 | a key-layout record gives the same outcome in two passes, and documents that agree apart from `Time` |
| TwoPasses.DocumentBesidesTime | mongodb/sync_service.go:176-790 | two passes over an unchanged record give the same outcome (document, none or panic), and their documents have the same keys and agree everywhere except in `Time` stamps |
| TwoPasses.EntryTwice | mongodb/sync_service.go:83-170 | an entry that the first pass left in a shape the second pass accepts is not removed by the second pass, and comes back unchanged apart from nested `Time` stamps |
| TwoPasses.SimplifyTwice | mongodb/sync_service.go:81-172 | normalising a normalised map that is still shaped gives the same keys and the same values, apart from `Time` stamps at any depth |
| TwoPasses.PassesPanicAlike | mongodb/sync_service.go:802-861 | whether a pass over an unchanged store panics does not depend on the clock |

## Left out

- MongoDB connect, ping and disconnect, and the `BulkWrite` calls themselves. A flush is modelled as appending a batch to the output. The result of a write is only printed in the source, so it is not modelled.
- The Badger transaction and iterator (`Seek`, `Valid`, `Next`), the 60-second sleep and the endless outer loop. The store is a sequence of records in key order. A value that fails to copy is a record whose value is `None`.
- Library code is a `Foreign` record of functions that every property holds for. This covers gob decoding, `FromBytes`, `DeserializeBlockNode`, `structs.Map`, `json.Marshal` and `json.Unmarshal`, `PkToStringBoth`, `BlockHash.String`, `UtxoType.String` and `big.Int.String`. Marshal errors are modelled as "no document", because a nil JSON result is skipped. Which fields `structs.Map` produces for each entry type is not modelled.
- `time.Now()` is one timestamp parameter per pass.
- Go map iteration order is a parameter of `FoldKeys`; `IterationOrderIrrelevant` shows that the choice does not matter. Inserting `ParentHash` in the middle of the range loop is modelled as a fold over the initial key set.
- A map with two `*BlockNode` entries that point to different parents would give an order-dependent `ParentHash` in Go. `ShapedMap` requires all such entries to agree, so the dispatcher models such a map as a panic. The same holds for a map that would fail a type assertion.
- Slicing is checked against a slice's length. Go checks the upper bound of `key[a:b]` against capacity, and the model does not.
- `ValueCopy(ret[:])` for tags 3 and 4 is modelled as Badger's append into `dst[:0]`. A value of at most 32 bytes lands in the hash; a longer value leaves the hash zero.
- Tags 3 and 4 read the value a second time, and that read has its own error return. The model assumes both reads of a value give the same result, so only the first read can fail.
- Tag 7 fills the `UtxoKey` struct with only `TxID` and `Index`, as the source does. `structs.Map` of that struct is modelled as those two fields.
- The `MongoMeta` text of each tag is carried as data. Only its presence, and which tag it belongs to, is proved about.
- DecodedRecordNormalised: states a decoded record's document in terms of the foreign decoder's map. No per-table field layout is claimed, because that layout comes from library structs.
- PublicKeyToPKIDRecord: states only the `PKID` field of tag 36. The other fields come from the library's `PKIDEntry` struct.
- OpSetsDocument: assumes JSON round-trips. `json.Unmarshal` turns numbers into floats, so in the source `$set` carries an equivalent BSON document rather than the same one.
- PassesPanicAlike: compares only whether two passes panic, not the operations they write. `json.Marshal` is a foreign function of the whole document, `Time` included, so it may accept one pass's document and reject the other's.
- `Outcome` panics end the process. The model reports whether a pass panicked, and nothing after that point.

=== FILE: bytes.dfy ===
/**
 Byte-level helpers the dispatcher relies on: Go's `binary.BigEndian`
 decoders, `hex.EncodeToString`, the `string([]byte)` conversion and the
 two ways a 32-byte `lib.BlockHash` is filled from a slice (`copy` and
 Badger's `ValueCopy` into a fixed buffer).
 */
module Bytes {

  import opened Wrappers

  type Byte = b: int | 0 <= b < 256

  /** Size of a hash (`lib.HashSizeBytes`). */
  const HashSize: nat := 32

  function Pow256(n: nat): (r: nat)
    ensures r > 0
  {
    if n == 0 then 1 else 256 * Pow256(n - 1)
  }

  /* ---------------------------------------------------------------------
     Big-endian unsigned integers
     --------------------------------------------------------------------- */

  /** The unsigned integer whose big-endian encoding is `s`. */
  function BigEndian(s: seq<Byte>): (n: nat)
    ensures n < Pow256(|s|)
  {
    if |s| == 0 then 0 else BigEndian(s[..|s| - 1]) * 256 + s[|s| - 1]
  }

  /** The `width`-byte big-endian encoding of `n` (the reference encoder). */
  function ToBigEndian(n: nat, width: nat): (s: seq<Byte>)
    requires n < Pow256(width)
    ensures |s| == width
  {
    if width == 0 then [] else ToBigEndian(n / 256, width - 1) + [n % 256]
  }

  lemma {:induction false} BigEndianRoundTrip(n: nat, width: nat)
    requires n < Pow256(width)
    ensures BigEndian(ToBigEndian(n, width)) == n
  {
    if width > 0 {
      var s := ToBigEndian(n, width);
      assert s[..|s| - 1] == ToBigEndian(n / 256, width - 1);
      BigEndianRoundTrip(n / 256, width - 1);
    }
  }

  lemma {:induction false} ToBigEndianRoundTrip(s: seq<Byte>)
    ensures ToBigEndian(BigEndian(s), |s|) == s
  {
    if |s| > 0 {
      var init := s[..|s| - 1];
      ToBigEndianRoundTrip(init);
      var n := BigEndian(s);
      assert n / 256 == BigEndian(init);
      assert n % 256 == s[|s| - 1];
      assert s == init + [s[|s| - 1]];
    }
  }

  /** `binary.BigEndian.Uint32(b)`: reads the first four bytes; Go panics on fewer. */
  function Uint32(b: seq<Byte>): (n: nat)
    requires |b| >= 4
    ensures n < 0x1_0000_0000
    ensures ToBigEndian(n, 4) == b[..4]
  {
    ToBigEndianRoundTrip(b[..4]);
    BigEndian(b[..4])
  }

  /** `lib.DecodeUint64(b)`: an eight-byte big-endian read; Go panics on fewer. */
  function DecodeUint64(b: seq<Byte>): (n: nat)
    requires |b| >= 8
    ensures n < 0x1_0000_0000_0000_0000
    ensures ToBigEndian(n, 8) == b[..8]
  {
    ToBigEndianRoundTrip(b[..8]);
    BigEndian(b[..8])
  }

  /* ---------------------------------------------------------------------
     Lower-case hexadecimal (`hex.EncodeToString`)
     --------------------------------------------------------------------- */

  /** The lower-case digit for a nibble. */
  function HexDigit(d: nat): (c: char)
    requires d < 16
  {
    if d < 10 then ('0' as int + d) as char else ('a' as int + d - 10) as char
  }

  predicate IsHexDigit(c: char) {
    '0' <= c <= '9' || 'a' <= c <= 'f'
  }

  function HexValue(c: char): (d: nat)
    requires IsHexDigit(c)
    ensures d < 16 && HexDigit(d) == c
  {
    if '0' <= c <= '9' then (c as int - '0' as int) else (c as int - 'a' as int) + 10
  }

  function HexEncode(b: seq<Byte>): (s: string)
    ensures |s| == 2 * |b|
    ensures forall i :: 0 <= i < |s| ==> IsHexDigit(s[i])
  {
    if |b| == 0 then []
    else [HexDigit(b[0] / 16), HexDigit(b[0] % 16)] + HexEncode(b[1..])
  }

  /** Inverse of `HexEncode` (`hex.DecodeString` restricted to lower case). */
  function HexDecode(s: string): (r: Option<seq<Byte>>)
    ensures r.Some? ==> 2 * |r.value| == |s|
  {
    if |s| == 0 then Some([])
    else if |s| == 1 || !IsHexDigit(s[0]) || !IsHexDigit(s[1]) then None
    else
      match HexDecode(s[2..])
      case None => None
      case Some(rest) => Some([HexValue(s[0]) * 16 + HexValue(s[1])] + rest)
  }

  lemma {:induction false} HexRoundTrip(b: seq<Byte>)
    ensures HexDecode(HexEncode(b)) == Some(b)
  {
    if |b| > 0 {
      var s := HexEncode(b);
      assert s[2..] == HexEncode(b[1..]);
      HexRoundTrip(b[1..]);
      assert HexValue(s[0]) == b[0] / 16;
      assert HexValue(s[1]) == b[0] % 16;
      assert [b[0]] + b[1..] == b;
    }
  }

  /* ---------------------------------------------------------------------
     Decimal numerals (the `:N` table numbers in label literals)
     --------------------------------------------------------------------- */

  predicate IsDecimalDigit(c: char) {
    '0' <= c <= '9'
  }

  /** The shortest decimal numeral of `n`. */
  function Decimal(n: nat): (s: string)
    ensures |s| > 0 && forall i :: 0 <= i < |s| ==> IsDecimalDigit(s[i])
  {
    if n < 10 then [HexDigit(n)] else Decimal(n / 10) + [HexDigit(n % 10)]
  }

  /** The number a numeral denotes (the reference reader). */
  function DecimalValue(s: string): nat
    requires forall i :: 0 <= i < |s| ==> IsDecimalDigit(s[i])
  {
    if |s| == 0 then 0
    else
      assert IsDecimalDigit(s[|s| - 1]);
      DecimalValue(s[..|s| - 1]) * 10 + (s[|s| - 1] as int - '0' as int)
  }

  lemma {:induction false} DecimalRoundTrip(n: nat)
    ensures DecimalValue(Decimal(n)) == n
  {
    if n >= 10 {
      var s := Decimal(n);
      assert s[..|s| - 1] == Decimal(n / 10);
      DecimalRoundTrip(n / 10);
    }
  }

  /** Different numbers have different numerals. */
  lemma DecimalInjective(a: nat, b: nat)
    ensures Decimal(a) == Decimal(b) <==> a == b
  {
    if Decimal(a) == Decimal(b) {
      DecimalRoundTrip(a);
      DecimalRoundTrip(b);
    }
  }

  /* ---------------------------------------------------------------------
     Go's `string([]byte)`: a Go string is the same bytes, so each byte
     becomes the character with that code.
     --------------------------------------------------------------------- */

  function GoString(b: seq<Byte>): (s: string)
    ensures |s| == |b|
  {
    seq(|b|, i requires 0 <= i < |b| => b[i] as char)
  }

  predicate IsByteString(s: string) {
    forall i :: 0 <= i < |s| ==> s[i] as int < 256
  }

  /** `[]byte(s)` for a string produced by `GoString`. */
  function StringBytes(s: string): (b: seq<Byte>)
    requires IsByteString(s)
    ensures |b| == |s|
  {
    seq(|s|, i requires 0 <= i < |s| => s[i] as int)
  }

  lemma GoStringRoundTrip(b: seq<Byte>)
    ensures IsByteString(GoString(b))
    ensures StringBytes(GoString(b)) == b
  {
  }

  /** Two byte strings are equal exactly when their bytes are. */
  lemma GoStringInjective(a: seq<Byte>, b: seq<Byte>)
    ensures GoString(a) == GoString(b) <==> a == b
  {
    if GoString(a) == GoString(b) {
      GoStringRoundTrip(a);
      GoStringRoundTrip(b);
    }
  }

  /* ---------------------------------------------------------------------
     Filling a 32-byte hash
     --------------------------------------------------------------------- */

  function Zeros(n: nat): (z: seq<Byte>)
    ensures |z| == n && forall i :: 0 <= i < n ==> z[i] == 0
  {
    seq(n, _ => 0)
  }

  /** `copy(hash[:], src)` on a zeroed `lib.BlockHash`: Go's `copy` moves
      `min(32, len(src))` bytes and leaves the rest zero. */
  function CopyHash(src: seq<Byte>): (h: seq<Byte>)
    ensures |h| == HashSize
    ensures forall i :: 0 <= i < HashSize && i < |src| ==> h[i] == src[i]
    ensures forall i :: |src| <= i < HashSize ==> h[i] == 0
  {
    if |src| >= HashSize then src[..HashSize] else src + Zeros(HashSize - |src|)
  }

  /** A slice of exactly 32 bytes fills the hash unchanged. */
  lemma CopyHashExact(src: seq<Byte>)
    requires |src| == HashSize
    ensures CopyHash(src) == src
  {
  }

  /** `item.ValueCopy(hash[:])` on a zeroed `lib.BlockHash`. Badger appends
      the value to `dst[:0]`: a value of at most 32 bytes lands in the hash's
      own storage, a longer one is appended to a fresh buffer and the hash
      stays zero. */
  function ValueCopyHash(val: seq<Byte>): (h: seq<Byte>)
    ensures |h| == HashSize
    ensures |val| <= HashSize ==> h[..|val|] == val
    ensures |val| <= HashSize ==> forall i :: |val| <= i < HashSize ==> h[i] == 0
    ensures |val| <= HashSize ==> h == CopyHash(val)
    ensures |val| > HashSize ==> h == Zeros(HashSize)
  {
    if |val| <= HashSize then val + Zeros(HashSize - |val|) else Zeros(HashSize)
  }
}

=== FILE: dispatcher.dfy ===
/**
 The prefix dispatcher, `BadgerItrToJSON` in mongodb/sync_service.go.

 A Badger record is a key and the result of reading its value. The key's
 first byte is a tag; each known tag builds a field map, from a foreign
 decoder or from fixed slices of the key and value, labels it with a
 description (`MongoMeta`) and the tag's name (`BadgerKeyPrefix`), usually
 normalises it with `SimplifyMap`, and marshals it to JSON.

 Three outcomes are distinguished: a document, no document (Go's `nil`),
 and a Go runtime panic (an index or slice out of range, a nil pointer, a
 failed type assertion).
 */
module Dispatcher {

  import opened Wrappers
  import opened Bytes
  import opened Values
  import opened Normalizer

  datatype Outcome<+T> = Done(value: T) | NoDoc | Panic

  const MetaKey: string := "MongoMeta"
  const PrefixKey: string := "BadgerKeyPrefix"

  /** Every tag the switch has a case for. */
  predicate KnownTag(t: Byte) {
    t <= 37 || t == 39 || t == 40
  }

  /** `SimplifyMap(&docMap)`: its type assertions fail, and Go panics, unless
      the map has the shape the normaliser expects. */
  function Simplified(m: FieldMap, f: Foreign, now: string): (r: Outcome<FieldMap>)
    ensures r.Done? <==> ShapedMap(m)
    ensures r.Done? ==> TimeKey in r.value && r.value[TimeKey] == Str(now)
  {
    if ShapedMap(m) then Done(SimplifyMap(m, f, now)) else Panic
  }

  /* ---------------------------------------------------------------------
     The labels each case writes
     --------------------------------------------------------------------- */

  /** A `BadgerKeyPrefix` literal: the name of a key-value table followed by
      a colon and a tag number, or a bare name. */
  datatype PrefixLabel = Tagged(table: string, tag: nat) | Untagged(table: string)

  /** The literal as the document holds it. */
  function Render(p: PrefixLabel): string {
    match p
    case Tagged(name, tag) => name + ":" + Decimal(tag)
    case Untagged(name) => name
  }

  /** The `BadgerKeyPrefix` literal of each case (empty for a tag without one). */
  function TagPrefix(t: Byte): PrefixLabel {
    match t
    case 0 => Tagged("_PrefixBlockHashToBlock", 0)
    case 1 => Tagged("_PrefixHeightHashToNodeInfo", 1)
    case 2 => Tagged("_PrefixBitcoinHeightHashToNodeInfo", 2)
    case 3 => Tagged("_KeyBestBitCloutBlockHash", 3)
    case 4 => Tagged("_KeyBestBitcoinHeaderHash", 4)
    case 5 => Tagged("_PrefixUtxoKeyToUtxoEntry", 5)
    case 6 => Tagged("_PrefixPositionToUtxoKey", 6)
    case 7 => Tagged("_PrefixPubKeyUtxoKey", 7)
    case 8 => Tagged("_KeyUtxoNumEntries", 8)
    case 9 => Tagged("_PrefixBlockHashToUtxoOperations", 9)
    case 10 => Tagged("_KeyNanosPurchased", 10)
    case 11 => Tagged("_PrefixBitcoinBurnTxIDs", 11)
    case 12 => Tagged("_PrefixPublicKeyTimestampToPrivateMessage", 12)
    case 13 => Tagged("_KeyAccountData", 13)
    case 14 => Tagged("_KeyTransactionIndexTip", 14)
    case 15 => Tagged("_PrefixTransactionIDToMetadata", 15)
    case 16 => Tagged("_KeyAccountData", 13)
    case 17 => Tagged("_PrefixPostHashToPostEntry", 17)
    case 18 => Tagged("_PrefixPosterPublicKeyPostHash", 18)
    case 19 => Tagged("_PrefixTstampNanosPostHash", 19)
    case 20 => Tagged("_PrefixCreatorBpsPostHash", 20)
    case 21 => Tagged("_PrefixMultipleBpsPostHash", 21)
    case 22 => Tagged("_PrefixCommentParentStakeIDToPostHash", 22)
    case 23 => Tagged("_PrefixProfilePubKeyToProfileEntry", 23)
    case 24 => Tagged("_PrefixProfileStakeToProfilePubKey", 24)
    case 25 => Tagged("_PrefixProfileUsernameToProfilePubKey", 25)
    case 26 => Tagged("_PrefixStakeIDTypeAmountStakeIDIndex", 26)
    case 27 => Tagged("_KeyUSDCentsPerBitcoinExchangeRate", 27)
    case 28 => Tagged("_PrefixFollowerPubKeyToFollowedPubKey", 28)
    case 29 => Tagged("_PrefixFollowedPubKeyToFollowerPubKey", 29)
    case 30 => Tagged("_PrefixLikerPubKeyToLikedPostHash", 30)
    case 31 => Tagged("_PrefixLikedPostHashToLikerPubKey", 31)
    case 32 => Tagged("_PrefixCreatorBitCloutLockedNanosCreatorPubKeyIIndex", 32)
    case 33 => Tagged("_PrefixHODLerPubKeyCreatorPubKeyToBalanceEntry", 33)
    case 34 => Tagged("_PrefixCreatorPubKeyHODLerPubKeyToBalanceEntry", 34)
    case 35 => Tagged("_PrefixPosterPublicKeyTimestampPostHash", 35)
    case 36 => Tagged("_PrefixPublicKeyToPKID", 36)
    case 37 => Tagged("_PrefixPKIDToPublicKey", 37)
    case 39 => Tagged("_PrefixReclouterPubKeyRecloutedPostHashToRecloutPostHash", 39)
    case 40 => Untagged("_KeyGlobalPArams")
    case _ => Untagged("")
  }

  /** `s` ends in a colon and the numeral of `t`: the `<table>:<tag>` form of
      the prefix literals. */
  predicate NamesTag(s: string, t: Byte) {
    var d := ":" + Decimal(t);
    |d| <= |s| && s[|s| - |d|..] == d
  }

  /** The cases that write a `MongoMeta`: all but 9, 13 and 16. */
  predicate HasMeta(t: Byte) {
    KnownTag(t) && t != 9 && t != 13 && t != 16
  }

  /** The `MongoMeta` literal of each case that writes one. */
  function TagMeta(t: Byte): string {
    match t
    case 0 => "A bitclout block and its corresponding blockhash."
    case 1 => "A block node in the bitclout blockchain graph."
    case 2 => "A block node in the bitcoin blockchain graph."
    case 3 => "The hash of the front of the best BitClout Chain."
    case 4 => "The hash of the front of the best Bitcoin Chain."
    case 5 => "A UTXO Entry."
    case 6 => "A UTXO Key."
    case 7 => "Public key and UTXO key."
    case 8 => "The number of utxo entries in the database."
    case 10 => "The number of nanos purchased thus far."
    case 11 => "A processed bitcoin transaction."
    case 12 => "An encrypted message between two users."
    case 14 =>
      "The transaction index supports the block explorer and is only created when a node is run with --txindex."
      + "It uses its own separate blockchain data structure to create the index, and this is the tip of that blockchain."
    case 15 => "The transaction metadata for a particular transaction ID."
    case 17 => "A User's Post or Subcomment."
    case 18 => "An association between a PostHash and its corresponding public key."
    case 19 => "An association between a PostHash and its corresponding time stamp (in nanos)."
    case 20 => "An association between a PostHash and its corresponding creator basis points founder reward."
    case 21 => "An association between a PostHash and its multiplier basis points."
    case 22 => "An association between a comment PostHash and it's corresponding parent post stakeID."
    case 23 => "A User's Profile."
    case 24 => "Depricated."
    case 25 => "A user's username and their corresponding PKID."
    case 26 => "A stake ID and its corresponding stakes nanos."
    case 27 => "The exchange rate in USD Cents for a bitcoin."
    case 28 => "A user's PKID (follower) and the PKID of those they follow (followed)."
    case 29 => "A user's PKID (followed) and the PKID of those who follow them (follower)."
    case 30 => "A user's public key and the post hash of one of their liked posts."
    case 31 => "A PostHash and a corresponding public key of someone who liked that post."
    case 32 => "The amount of BitClout locked in a particular profile's PKID."
    case 33 => "A user's (HODLerPubKey) balance of held (CreatorPubKey)."
    case 34 => "A ceator's (CreatorPubKey) hodlers (HODLerPubKey) and their associated balances."
    case 35 => "The PostHash of a post generated by a user's public key and the corresponding time in nanos."
    case 36 => "A mapping of a public key to it's corresponding PKID."
    case 37 => "A map of a PKID to it's corresponding public key."
    case 39 => "A user's public key and the post hash of one of the post they reclouted"
    case 40 => "Global Params Entry"
    case _ => ""
  }

  /** The case's labels: `MongoMeta` (when it has one), then `BadgerKeyPrefix`. */
  function Label(m: FieldMap, t: Byte): FieldMap {
    var withMeta := if HasMeta(t) then m[MetaKey := Str(TagMeta(t))] else m;
    withMeta[PrefixKey := Str(Render(TagPrefix(t)))]
  }

  /** Normalise, then label: the order of the decoded-record cases and case 7. */
  function SimplifiedThenLabelled(m: FieldMap, t: Byte, f: Foreign, now: string): (r: Outcome<FieldMap>)
    ensures r.Done? <==> ShapedMap(m)
  {
    match Simplified(m, f, now)
    case Done(doc) => Done(Label(doc, t))
    case _ => Panic
  }

  /** Label, then normalise: the order of the key-layout cases whose map
      literal holds the labels. */
  function LabelledThenSimplified(m: FieldMap, t: Byte, f: Foreign, now: string): (r: Outcome<FieldMap>)
    ensures r.Done? <==> ShapedMap(Label(m, t))
  {
    Simplified(Label(m, t), f, now)
  }

  /* ---------------------------------------------------------------------
     Records decoded from the value
     --------------------------------------------------------------------- */

  /** The record type each `gob` case decodes. */
  function GobCase(t: Byte): Option<GobType> {
    match t
    case 5 => Some(UtxoEntry)
    case 6 => Some(UtxoKey)
    case 12 => Some(MessageEntry)
    case 15 => Some(TransactionMetadata)
    case 17 => Some(PostEntry)
    case 23 => Some(ProfileEntry)
    case 33 => Some(BalanceEntry)
    case 34 => Some(BalanceEntry)
    case 36 => Some(PKIDEntry)
    case 39 => Some(RecloutEntry)
    case 40 => Some(GlobalParamsEntry)
    case _ => None
  }

  /** Tags whose value goes through a foreign decoder that can fail. */
  predicate DecodedTag(t: Byte) {
    t <= 2 || GobCase(t).Some?
  }

  /** The foreign decoder a decoded tag uses. */
  function DecoderResult(t: Byte, val: seq<Byte>, f: Foreign): Option<FieldMap>
    requires DecodedTag(t)
  {
    if t == 0 then f.decodeBlock(val)
    else if t <= 2 then f.decodeBlockNode(val)
    else f.gobDecode(GobCase(t).value, val)
  }

  const PKIDKey: string := "PKID"

  /** Cases 0, 1, 2, 5, 6, 12, 15, 17, 23, 33, 34, 36, 39 and 40. */
  function DecodedDocument(key: seq<Byte>, val: seq<Byte>, f: Foreign, now: string): (r: Outcome<FieldMap>)
    requires |key| > 0 && DecodedTag(key[0])
    ensures r.NoDoc? <==> DecoderResult(key[0], val, f).None?
  {
    var t := key[0];
    match DecoderResult(t, val, f)
    case None => NoDoc
    case Some(m) =>
      if t == 0 then
        SimplifiedThenLabelled(m["BlockHash" := BlockHash(CopyHash(key[1..]))], t, f, now)
      else if t == 36 then
        // `docMap["PKID"].(*lib.PKID)` and the copy out of it
        if PKIDKey !in m || !m[PKIDKey].PKIDPtr? || m[PKIDKey].pkid.None? then Panic
        else SimplifiedThenLabelled(m[PKIDKey := ByteSlice(m[PKIDKey].pkid.value)], t, f, now)
      else if t == 40 then
        Done(Label(m, t))
      else
        SimplifiedThenLabelled(m, t, f, now)
  }

  /* ---------------------------------------------------------------------
     Single values and placeholders
     --------------------------------------------------------------------- */

  /** Cases 3, 4, 8, 9, 10, 13, 14, 16 and 27: no decoder, no normaliser. */
  predicate ValueTag(t: Byte) {
    t == 3 || t == 4 || t == 8 || t == 9 || t == 10 || t == 13 || t == 14 || t == 16 || t == 27
  }

  const HashKey: string := "Hash"

  /** The field each counter case writes. */
  function CounterName(t: Byte): string {
    if t == 8 then "UTXOs" else if t == 10 then "Nanos" else "USDCentsPerBitcoin"
  }

  /** The counter cases: an eight-byte big-endian count. */
  predicate CounterTag(t: Byte) {
    t == 8 || t == 10 || t == 27
  }

  function ValueDocument(t: Byte, val: seq<Byte>, f: Foreign, now: string): (r: Outcome<FieldMap>)
    requires ValueTag(t)
    ensures !r.NoDoc?
    ensures r.Panic? <==> t == 14 || (CounterTag(t) && |val| < 8)
  {
    if t == 3 || t == 4 then
      // `ValueCopy(ret[:])` into a `lib.BlockHash`, then its string
      Done(Label(map[HashKey := Str(f.hashString(ValueCopyHash(val))), TimeKey := Str(now)], t))
    else if t == 9 || t == 13 || t == 16 then
      Done(Label(map[TimeKey := Str(now)], t))
    else if t == 14 then
      Panic // `ret[:]` on the nil `*lib.BlockHash`
    else if |val| < 8 then
      Panic // `lib.DecodeUint64` reads eight bytes
    else
      Done(Label(map[CounterName(t) := Num(DecodeUint64(val)), TimeKey := Str(now)], t))
  }

  /* ---------------------------------------------------------------------
     Records laid out in the key
     --------------------------------------------------------------------- */

  /** Cases 7, 11, 18 to 22, 24 to 26, 28 to 32, 35 and 37. */
  predicate KeyTag(t: Byte) {
    t == 7 || t == 11 || 18 <= t <= 22 || 24 <= t <= 26 || 28 <= t <= 32 || t == 35 || t == 37
  }

  /** The key length below which a slice of the case's layout is out of range. */
  function MinKeyLength(t: Byte): nat
    requires KeyTag(t)
  {
    if t == 7 then 70
    else if t == 11 || t == 25 then 1
    else if t == 26 then 10
    else if t == 22 || t == 35 then 42
    else if t == 18 || 28 <= t <= 31 || t == 37 then 34
    else 9
  }

  /** The map literal of each key-layout case, labels aside. */
  function KeyFields(key: seq<Byte>, val: seq<Byte>, now: string): FieldMap
    requires |key| > 0 && KeyTag(key[0]) && |key| >= MinKeyLength(key[0])
  {
    match key[0]
    case 7 => PubKeyUtxoKeyFields(key)
    case 11 => BurnTxIDFields(key, now)
    case 18 => PosterPostFields(key)
    case 22 => CommentParentFields(key)
    case 24 => ProfileStakeFields(key)
    case 25 => UsernameFields(key, val)
    case 26 => StakeIndexFields(key)
    case 28 => FollowerFields(key, now)
    case 29 => FollowedFields(key)
    case 30 => LikerFields(key)
    case 31 => LikedPostFields(key)
    case 32 => LockedNanosFields(key)
    case 35 => PosterTimestampFields(key)
    case 37 => PKIDToPublicKeyFields(key, val)
    case _ => StampedPostFields(key) // 19, 20, 21
  }

  /** 7: public key, transaction id, output index. */
  function PubKeyUtxoKeyFields(key: seq<Byte>): FieldMap
    requires |key| >= 70
  {
    map["TxID" := BlockHash(CopyHash(key[34..66])), "Index" := Num(Uint32(key[66..])),
        "PublicKey" := ByteSlice(key[1..34])]
  }

  /** 11: a burn transaction id. */
  function BurnTxIDFields(key: seq<Byte>, now: string): FieldMap
    requires |key| >= 1
  {
    map["TxID" := BlockHash(CopyHash(key[1..])), TimeKey := Str(now)]
  }

  /** 18: poster public key, post hash. */
  function PosterPostFields(key: seq<Byte>): FieldMap
    requires |key| >= 34
  {
    map["PublicKey" := ByteSlice(key[1..34]), "PostHash" := BlockHash(CopyHash(key[34..]))]
  }

  /** 19, 20 and 21: an eight-byte number, then a post hash. */
  function StampedPostFields(key: seq<Byte>): FieldMap
    requires |key| >= 9
  {
    map["TstampNanos" := Num(DecodeUint64(key[1..9])), "PostHash" := BlockHash(CopyHash(key[9..]))]
  }

  /** 22: parent stake id, timestamp, comment post hash. */
  function CommentParentFields(key: seq<Byte>): FieldMap
    requires |key| >= 42
  {
    map[ParentStakeIDKey := ByteSlice(key[1..34]), "TstampNanos" := Num(DecodeUint64(key[34..42])),
        "PostHash" := BlockHash(CopyHash(key[42..]))]
  }

  /** 24: stake, public key. */
  function ProfileStakeFields(key: seq<Byte>): FieldMap
    requires |key| >= 9
  {
    map["Stake" := Num(DecodeUint64(key[1..9])), "PublicKey" := ByteSlice(key[9..])]
  }

  /** 25: username from the key, owner from the value. */
  function UsernameFields(key: seq<Byte>, val: seq<Byte>): FieldMap
    requires |key| >= 1
  {
    map["Username" := ByteSlice(key[1..]), PKIDKey := ByteSlice(val)]
  }

  /** 26: stake type, amount, stake id. */
  function StakeIndexFields(key: seq<Byte>): FieldMap
    requires |key| >= 10
  {
    map["StakeType" := Str(if key[1] == 0 then "Post" else "Profile"),
        "AmountNanos" := ByteSlice(key[2..10]), "StakeID" := ByteSlice(key[10..])]
  }

  /** 28: follower, followed, and a timestamp. */
  function FollowerFields(key: seq<Byte>, now: string): FieldMap
    requires |key| >= 34
  {
    map["FollowerPKID" := ByteSlice(key[1..34]), "FollowedPKID" := ByteSlice(key[34..]), TimeKey := Str(now)]
  }

  /** 29: followed, follower. */
  function FollowedFields(key: seq<Byte>): FieldMap
    requires |key| >= 34
  {
    map["FollowedPKID" := ByteSlice(key[1..34]), "FollowerPKID" := ByteSlice(key[34..])]
  }

  /** 30: liker public key, liked post hash. */
  function LikerFields(key: seq<Byte>): FieldMap
    requires |key| >= 34
  {
    map["PublicKey" := ByteSlice(key[1..34]), "LikedPostHash" := BlockHash(CopyHash(key[34..]))]
  }

  /** 31: both fields are read from bytes 1 to 34. */
  function LikedPostFields(key: seq<Byte>): FieldMap
    requires |key| >= 34
  {
    map["PublicKey" := ByteSlice(key[1..34]), "LikedPostHash" := BlockHash(CopyHash(key[1..34]))]
  }

  /** 32: creator PKID, locked nanos. */
  function LockedNanosFields(key: seq<Byte>): FieldMap
    requires |key| >= 9
  {
    map[PKIDKey := ByteSlice(key[9..]), "BitCloutLockedNanos" := Num(DecodeUint64(key[1..9]))]
  }

  /** 35: poster public key, post hash, timestamp. */
  function PosterTimestampFields(key: seq<Byte>): FieldMap
    requires |key| >= 42
  {
    map["PublicKey" := ByteSlice(key[1..34]), "PostHash" := BlockHash(CopyHash(key[42..])),
        "TStampNanos" := Num(DecodeUint64(key[34..42]))]
  }

  /** 37: public key from the value, PKID from the key. */
  function PKIDToPublicKeyFields(key: seq<Byte>, val: seq<Byte>): FieldMap
    requires |key| >= 34
  {
    map["PublicKey" := ByteSlice(val), PKIDKey := ByteSlice(key[1..34])]
  }

  function KeyDocument(key: seq<Byte>, val: seq<Byte>, f: Foreign, now: string): (r: Outcome<FieldMap>)
    requires |key| > 0 && KeyTag(key[0])
    ensures !r.NoDoc?
    ensures |key| < MinKeyLength(key[0]) ==> r.Panic?
  {
    var t := key[0];
    if |key| < MinKeyLength(t) then Panic
    else if t == 7 then SimplifiedThenLabelled(KeyFields(key, val, now), t, f, now)
    else LabelledThenSimplified(KeyFields(key, val, now), t, f, now)
  }

  /* ---------------------------------------------------------------------
     The dispatcher
     --------------------------------------------------------------------- */

  /** The document built for a record, before marshalling. `read` is the
      result of `ValueCopy(nil)`: `None` when reading the value failed. */
  function Document(key: seq<Byte>, read: Option<seq<Byte>>, f: Foreign, now: string): Outcome<FieldMap> {
    if |key| == 0 then Panic // `key[0]`
    else
      match read
      case None => NoDoc
      case Some(val) =>
        var t := key[0];
        if DecodedTag(t) then DecodedDocument(key, val, f, now)
        else if ValueTag(t) then ValueDocument(t, val, f, now)
        else if KeyTag(t) then KeyDocument(key, val, f, now)
        else NoDoc
  }

  /** `BadgerItrToJSON`: the document marshalled to JSON. A marshalling error
      is ignored in Go, leaving a nil slice, so it yields no document. */
  function BadgerItrToJSON(key: seq<Byte>, read: Option<seq<Byte>>, f: Foreign, now: string)
    : (r: Outcome<seq<Byte>>)
    ensures r.Done? <==> Document(key, read, f, now).Done? && f.marshal(Document(key, read, f, now).value).Some?
    ensures r.Panic? <==> Document(key, read, f, now).Panic?
  {
    match Document(key, read, f, now)
    case Done(doc) => (match f.marshal(doc) case Some(json) => Done(json) case None => NoDoc)
    case NoDoc => NoDoc
    case Panic => Panic
  }
}

=== FILE: dispatcher_facts.dfy ===
/**
 Properties of the dispatcher: when a record yields a document, a panic or
 nothing; the labels and timestamp every document carries; and, for the
 records laid out in the key, which bytes of the key end up in which field.
 */
module DispatcherFacts {

  import opened Wrappers
  import opened Bytes
  import opened Values
  import opened Normalizer
  import opened NormalizerFacts
  import opened Dispatcher

  /* ---------------------------------------------------------------------
     Which records yield a document
     --------------------------------------------------------------------- */

  /** The three families of cases are disjoint and together are exactly the
      tags the switch names. */
  lemma TagFamilies(t: Byte)
    ensures KnownTag(t) <==> DecodedTag(t) || ValueTag(t) || KeyTag(t)
    ensures !(DecodedTag(t) && ValueTag(t)) && !(DecodedTag(t) && KeyTag(t)) && !(ValueTag(t) && KeyTag(t))
  {
  }

  /** `key[0]` on an empty key panics before the value is read. */
  lemma EmptyKeyPanics(read: Option<seq<Byte>>, f: Foreign, now: string)
    ensures Document([], read, f, now).Panic?
  {
  }

  /** A record yields no document exactly when its value cannot be read, the
      switch has no case for its tag, or the case's decoder rejects the value. */
  lemma NoDocumentExactly(key: seq<Byte>, read: Option<seq<Byte>>, f: Foreign, now: string)
    requires |key| > 0
    ensures Document(key, read, f, now).NoDoc? <==>
      || read.None?
      || !KnownTag(key[0])
      || (DecodedTag(key[0]) && DecoderResult(key[0], read.value, f).None?)
  {
    TagFamilies(key[0]);
  }

  /** In particular a record whose tag the switch does not name is skipped,
      whatever its value. */
  lemma UnknownTagSkipped(key: seq<Byte>, read: Option<seq<Byte>>, f: Foreign, now: string)
    requires |key| > 0 && !KnownTag(key[0])
    ensures Document(key, read, f, now) == NoDoc
    ensures BadgerItrToJSON(key, read, f, now) == NoDoc
  {
    TagFamilies(key[0]);
  }

  /** `_KeyTransactionIndexTip` always panics once its value is read. */
  lemma TransactionIndexTipPanics(key: seq<Byte>, val: seq<Byte>, f: Foreign, now: string)
    requires |key| > 0 && key[0] == 14
    ensures Document(key, Some(val), f, now) == Panic
  {
  }

  /* ---------------------------------------------------------------------
     Maps built from the key
     --------------------------------------------------------------------- */

  /** An entry a key-layout case writes: a byte slice under a name the key
      switch reads as bytes (or leaves alone), anything else under a name
      outside the switch. */
  predicate FlatEntry(k: string, v: Value) {
    if v.ByteSlice? then KeyCaseOf(k) != PKIDPointer && KeyCaseOf(k) != Header && KeyCaseOf(k) != Txns
    else (v.Str? || v.Num? || v.BlockHash?) && KeyCaseOf(k) == Plain
  }

  /** A map of such entries passes every type assertion of the normaliser. */
  lemma FlatMapShaped(m: FieldMap)
    requires forall k | k in m :: FlatEntry(k, m[k])
    ensures ShapedMap(m)
    ensures forall k | k in m :: !Removes(m[k])
  {
  }

  /** The label names are outside the key switch. */
  lemma LabelNames()
    ensures KeyCaseOf(MetaKey) == Plain && KeyCaseOf(PrefixKey) == Plain
    ensures MetaKey != TimeKey && MetaKey != ParentHashKey && MetaKey != PrefixKey
    ensures PrefixKey != TimeKey && PrefixKey != ParentHashKey
  {
  }

  predicate FlatFields(m: FieldMap) {
    forall k | k in m :: FlatEntry(k, m[k])
  }

  lemma FlatFieldsA(key: seq<Byte>, val: seq<Byte>, now: string)
    requires |key| > 0 && key[0] in {7, 11, 18, 19, 20, 21} && |key| >= MinKeyLength(key[0])
    ensures FlatFields(KeyFields(key, val, now))
  {
  }

  lemma FlatFieldsB(key: seq<Byte>, val: seq<Byte>, now: string)
    requires |key| > 0 && key[0] in {22, 24, 25, 26} && |key| >= MinKeyLength(key[0])
    ensures FlatFields(KeyFields(key, val, now))
  {
  }

  lemma FlatFieldsC(key: seq<Byte>, val: seq<Byte>, now: string)
    requires |key| > 0 && key[0] in {28, 29, 30, 31} && |key| >= MinKeyLength(key[0])
    ensures FlatFields(KeyFields(key, val, now))
  {
  }

  lemma FlatFieldsD(key: seq<Byte>, val: seq<Byte>, now: string)
    requires |key| > 0 && key[0] in {32, 35, 37} && |key| >= MinKeyLength(key[0])
    ensures FlatFields(KeyFields(key, val, now))
  {
  }

  /** Labelling keeps a map flat. */
  lemma LabelFlat(m: FieldMap, t: Byte)
    requires FlatFields(m)
    ensures FlatFields(Label(m, t))
  {
    LabelNames();
  }

  /** The map literal of every key-layout case, labelled or not, is one the
      normaliser accepts: these cases never panic in `SimplifyMap`. */
  lemma KeyFieldsShaped(key: seq<Byte>, val: seq<Byte>, now: string)
    requires |key| > 0 && KeyTag(key[0]) && |key| >= MinKeyLength(key[0])
    ensures FlatFields(KeyFields(key, val, now)) && FlatFields(Label(KeyFields(key, val, now), key[0]))
    ensures ShapedMap(KeyFields(key, val, now)) && ShapedMap(Label(KeyFields(key, val, now), key[0]))
  {
    var t := key[0];
    if t in {7, 11, 18, 19, 20, 21} {
      FlatFieldsA(key, val, now);
    } else if t in {22, 24, 25, 26} {
      FlatFieldsB(key, val, now);
    } else if t in {28, 29, 30, 31} {
      FlatFieldsC(key, val, now);
    } else {
      FlatFieldsD(key, val, now);
    }
    var m := KeyFields(key, val, now);
    LabelFlat(m, t);
    FlatMapShaped(m);
    FlatMapShaped(Label(m, t));
  }

  /** A key-layout record panics exactly when its key is too short for the
      case's slices; otherwise it always yields a document. */
  lemma KeyLayoutPanicsExactly(key: seq<Byte>, val: seq<Byte>, f: Foreign, now: string)
    requires |key| > 0 && KeyTag(key[0])
    ensures Document(key, Some(val), f, now).Panic? <==> |key| < MinKeyLength(key[0])
    ensures Document(key, Some(val), f, now).Done? <==> |key| >= MinKeyLength(key[0])
  {
    TagFamilies(key[0]);
    if |key| >= MinKeyLength(key[0]) {
      KeyFieldsShaped(key, val, now);
    }
  }

  /* ---------------------------------------------------------------------
     Labels and timestamp
     --------------------------------------------------------------------- */

  /** A string under a name outside the key switch survives `SimplifyMap`. */
  lemma PlainStringKept(m: FieldMap, k: string, f: Foreign, now: string)
    requires ShapedMap(m) && k in m && m[k].Str? && KeyCaseOf(k) == Plain
    requires k != TimeKey && k != ParentHashKey
    ensures k in SimplifyMap(m, f, now) && SimplifyMap(m, f, now)[k] == m[k]
  {
    SimplifyMapAt(m, k, f, now);
    assert k !in Parents(m, m.Keys, f);
    assert TypeRewrite(m[k], f, now) == Keep(m[k]);
  }

  /** Every key-layout case writes a `MongoMeta`. */
  lemma KeyTagsHaveMeta(t: Byte)
    requires KeyTag(t)
    ensures HasMeta(t)
  {
  }

  /** The labels survive the normaliser in the cases that label first. */
  lemma LabelsSurviveSimplify(m: FieldMap, t: Byte, f: Foreign, now: string)
    requires ShapedMap(Label(m, t)) && HasMeta(t)
    ensures var r := SimplifyMap(Label(m, t), f, now);
      && PrefixKey in r && r[PrefixKey] == Str(Render(TagPrefix(t)))
      && MetaKey in r && r[MetaKey] == Str(TagMeta(t))
  {
    LabelNames();
    PlainStringKept(Label(m, t), PrefixKey, f, now);
    PlainStringKept(Label(m, t), MetaKey, f, now);
  }

  /** The labels of a key-layout document. */
  lemma KeyDocumentLabels(key: seq<Byte>, val: seq<Byte>, f: Foreign, now: string)
    requires |key| > 0 && KeyTag(key[0]) && KeyDocument(key, val, f, now).Done?
    ensures var doc := KeyDocument(key, val, f, now).value;
      && PrefixKey in doc && doc[PrefixKey] == Str(Render(TagPrefix(key[0])))
      && MetaKey in doc && doc[MetaKey] == Str(TagMeta(key[0]))
  {
    KeyTagsHaveMeta(key[0]);
    if key[0] != 7 {
      LabelsSurviveSimplify(KeyFields(key, val, now), key[0], f, now);
    }
  }

  /** Every document carries its case's `BadgerKeyPrefix` literal, and a
      `MongoMeta` exactly when its case writes one (all but 9, 13 and 16). */
  lemma DocumentLabels(key: seq<Byte>, read: Option<seq<Byte>>, f: Foreign, now: string)
    requires |key| > 0 && Document(key, read, f, now).Done?
    ensures var doc := Document(key, read, f, now).value; var t := key[0];
      && PrefixKey in doc && doc[PrefixKey] == Str(Render(TagPrefix(t)))
      && (MetaKey in doc <==> HasMeta(t))
      && (HasMeta(t) ==> doc[MetaKey] == Str(TagMeta(t)))
  {
    var t := key[0];
    TagFamilies(t);
    LabelNames();
    if KeyTag(t) {
      KeyTagsHaveMeta(t);
      KeyDocumentLabels(key, read.value, f, now);
    }
  }

  /** The time stamp of a document built by labelling a normalised map. */
  lemma LabelKeepsTime(m: FieldMap, t: Byte)
    ensures TimeKey in Label(m, t) <==> TimeKey in m
    ensures TimeKey in m ==> Label(m, t)[TimeKey] == m[TimeKey]
  {
    LabelNames();
  }

  lemma DecodedDocumentTime(key: seq<Byte>, val: seq<Byte>, f: Foreign, now: string)
    requires |key| > 0 && DecodedTag(key[0]) && key[0] != 40 && DecodedDocument(key, val, f, now).Done?
    ensures var doc := DecodedDocument(key, val, f, now).value; TimeKey in doc && doc[TimeKey] == Str(now)
  {
    var doc := DecodedDocument(key, val, f, now).value;
    var m :| Label(m, key[0]) == doc && TimeKey in m && m[TimeKey] == Str(now);
    LabelKeepsTime(m, key[0]);
  }

  lemma KeyDocumentTime(key: seq<Byte>, val: seq<Byte>, f: Foreign, now: string)
    requires |key| > 0 && KeyTag(key[0]) && KeyDocument(key, val, f, now).Done?
    ensures var doc := KeyDocument(key, val, f, now).value; TimeKey in doc && doc[TimeKey] == Str(now)
  {
    if key[0] == 7 {
      var doc := KeyDocument(key, val, f, now).value;
      LabelKeepsTime(SimplifyMap(KeyFields(key, val, now), f, now), key[0]);
    }
  }

  /** Every document but `_KeyGlobalParams` is stamped with the pass's time;
      that one keeps whatever `Time` its decoded record had, or none. */
  lemma DocumentTime(key: seq<Byte>, read: Option<seq<Byte>>, f: Foreign, now: string)
    requires |key| > 0 && Document(key, read, f, now).Done?
    ensures var doc := Document(key, read, f, now).value;
      && (key[0] != 40 ==> TimeKey in doc && doc[TimeKey] == Str(now))
      && (key[0] == 40 ==>
            var decoded := DecoderResult(40, read.value, f).value;
            && (TimeKey in doc <==> TimeKey in decoded)
            && (TimeKey in decoded ==> doc[TimeKey] == decoded[TimeKey]))
  {
    var t := key[0];
    TagFamilies(t);
    if t == 40 {
      LabelKeepsTime(DecoderResult(40, read.value, f).value, t);
    } else if DecodedTag(t) {
      DecodedDocumentTime(key, read.value, f, now);
    } else if KeyTag(t) {
      KeyDocumentTime(key, read.value, f, now);
    } else {
      LabelNames();
    }
  }

  /* ---------------------------------------------------------------------
     The prefix literals
     --------------------------------------------------------------------- */

  /** The tag number each prefix literal carries: its own case's, except
      that case 16 carries case 13's whole literal and case 40 none. */
  lemma PrefixTags(t: Byte)
    requires KnownTag(t)
    ensures TagPrefix(t).Tagged? <==> t != 40
    ensures TagPrefix(t).Tagged? ==> (TagPrefix(t).tag == t <==> t != 16)
    ensures t == 16 ==> TagPrefix(t) == TagPrefix(13)
  {
  }

  /** A rendered tagged literal names its tag. */
  lemma RenderNamesTag(name: string, t: Byte)
    ensures NamesTag(Render(Tagged(name, t)), t)
  {
    var s, d := Render(Tagged(name, t)), ":" + Decimal(t);
    assert s == name + d;
    assert s[|s| - |d|..] == d;
  }

  /** The numeral before a string's end is at least as long as any other
      numeral it ends in, so the two are the same. */
  lemma NoShorterTag(s: string, a: Byte, b: Byte)
    requires NamesTag(s, a) && NamesTag(s, b)
    ensures |Decimal(a)| >= |Decimal(b)|
  {
    var da, db := ":" + Decimal(a), ":" + Decimal(b);
    if |da| < |db| {
      ColonOnlyFirst(b, |db| - |da|);
      SuffixOfSuffix(s, da, db);
    }
  }

  /** The colon of `:<tag>` is its only one. */
  lemma ColonOnlyFirst(t: Byte, i: nat)
    requires 0 < i < |":" + Decimal(t)|
    ensures (":" + Decimal(t))[i] != ':'
  {
    assert (":" + Decimal(t))[i] == Decimal(t)[i - 1];
  }

  /** Of two endings of the same string, the shorter ends the longer. */
  lemma SuffixOfSuffix(s: string, short: string, long: string)
    requires |short| <= |long| <= |s|
    requires s[|s| - |short|..] == short && s[|s| - |long|..] == long
    ensures long[|long| - |short|..] == short
    ensures 0 < |short| ==> long[|long| - |short|] == short[0]
  {
    assert long[|long| - |short|..] == s[|s| - |short|..];
  }

  /** A string ends in the tag of at most one table. */
  lemma NamesOneTag(s: string, a: Byte, b: Byte)
    requires NamesTag(s, a) && NamesTag(s, b)
    ensures a == b
  {
    NoShorterTag(s, a, b);
    NoShorterTag(s, b, a);
    var da, db := ":" + Decimal(a), ":" + Decimal(b);
    assert da == s[|s| - |da|..] == db;
    assert Decimal(a) == da[1..] == db[1..] == Decimal(b);
    DecimalInjective(a, b);
  }

  /** The bare literal of case 40 names no tag: it ends in a letter. */
  lemma GlobalParamsPrefixUntagged(t: Byte)
    ensures !NamesTag(Render(TagPrefix(40)), t)
  {
    var s := Render(TagPrefix(40));
    assert s[|s| - 1] == 's';
  }

  /** Every prefix literal ends in its own tag, except two: case 16 reuses
      the literal of case 13 and case 40's literal carries no tag. */
  lemma PrefixesNameTheirTag(t: Byte)
    requires KnownTag(t)
    ensures NamesTag(Render(TagPrefix(t)), t) <==> t != 16 && t != 40
  {
    PrefixTags(t);
    if t == 40 {
      GlobalParamsPrefixUntagged(t);
    } else {
      RenderNamesTag(TagPrefix(t).table, TagPrefix(t).tag);
      if t == 16 && NamesTag(Render(TagPrefix(t)), t) {
        NamesOneTag(Render(TagPrefix(t)), 13, 16);
      }
    }
  }

  /** A document's `BadgerKeyPrefix` tells its table apart from every
      other's, except that case 16 is labelled as case 13. */
  lemma PrefixesDistinguishTables(a: Byte, b: Byte)
    requires KnownTag(a) && KnownTag(b) && a != b
    ensures Render(TagPrefix(a)) == Render(TagPrefix(b)) <==> (a == 13 && b == 16) || (a == 16 && b == 13)
  {
    PrefixTags(a);
    PrefixTags(b);
    PrefixTags(13);
    var pa, pb := Render(TagPrefix(a)), Render(TagPrefix(b));
    if a != 40 {
      RenderNamesTag(TagPrefix(a).table, TagPrefix(a).tag);
    }
    if b != 40 {
      RenderNamesTag(TagPrefix(b).table, TagPrefix(b).tag);
    }
    if pa == pb {
      if a == 40 {
        GlobalParamsPrefixUntagged(TagPrefix(b).tag);
      } else if b == 40 {
        GlobalParamsPrefixUntagged(TagPrefix(a).tag);
      } else {
        NamesOneTag(pa, TagPrefix(a).tag, TagPrefix(b).tag);
      }
    }
  }

  /* ---------------------------------------------------------------------
     Key layouts, field by field
     --------------------------------------------------------------------- */

  /** In a flat map every entry other than `Time` is simply processed. */
  lemma FlatSimplifyAt(m: FieldMap, k: string, f: Foreign, now: string)
    requires FlatFields(m) && k in m && k != TimeKey
    ensures ShapedMap(m) && ShapedValue(k, m[k]) && !Removes(m[k])
    ensures k in SimplifyMap(m, f, now) && SimplifyMap(m, f, now)[k] == Processed(k, m[k], f, now)
  {
    FlatMapShaped(m);
    SimplifyMapAt(m, k, f, now);
    assert k !in Parents(m, m.Keys, f);
  }

  /** A field of a key-layout document is its map-literal entry, processed. */
  lemma KeyDocumentAt(key: seq<Byte>, val: seq<Byte>, k: string, f: Foreign, now: string)
    requires |key| > 0 && KeyTag(key[0]) && |key| >= MinKeyLength(key[0])
    requires k in KeyFields(key, val, now) && k != TimeKey && k != MetaKey && k != PrefixKey
    ensures KeyDocument(key, val, f, now).Done?
    ensures var v := KeyFields(key, val, now)[k];
      && ShapedValue(k, v) && !Removes(v)
      && k in KeyDocument(key, val, f, now).value
      && KeyDocument(key, val, f, now).value[k] == Processed(k, v, f, now)
  {
    var m := KeyFields(key, val, now);
    KeyFieldsShaped(key, val, now);
    if key[0] == 7 {
      FlatSimplifyAt(m, k, f, now);
    } else {
      FlatSimplifyAt(Label(m, key[0]), k, f, now);
    }
  }

  /** Key-layout records are handled by the key-layout cases. */
  lemma KeyTagDispatch(key: seq<Byte>, val: seq<Byte>, f: Foreign, now: string)
    requires |key| > 0 && KeyTag(key[0])
    ensures Document(key, Some(val), f, now) == KeyDocument(key, val, f, now)
  {
    TagFamilies(key[0]);
  }

  /** `_PrefixPubKeyUtxoKey` (7): a 33-byte public key, a 32-byte transaction
      id and a four-byte big-endian output index. */
  lemma PubKeyUtxoKeyLayout(key: seq<Byte>, val: seq<Byte>, f: Foreign, now: string)
    requires |key| >= 70 && key[0] == 7
    ensures KeyDocument(key, val, f, now).Done?
    ensures var doc := KeyDocument(key, val, f, now).value;
      && "PublicKey" in doc && doc["PublicKey"] == Str(f.pkToString(key[1..34]))
      && "TxID" in doc && doc["TxID"] == Str(f.hashString(key[34..66]))
      && "Index" in doc && doc["Index"] == Num(BigEndian(key[66..70]))
  {
    var m := KeyFields(key, val, now);
    assert KeyCaseOf("PublicKey") == PublicKeyBytes;
    KeyDocumentAt(key, val, "PublicKey", f, now);
    assert Processed("PublicKey", m["PublicKey"], f, now) == Str(f.pkToString(key[1..34]));
    assert KeyCaseOf("TxID") == Plain;
    KeyDocumentAt(key, val, "TxID", f, now);
    CopyHashExact(key[34..66]);
    assert Processed("TxID", m["TxID"], f, now) == Str(f.hashString(key[34..66]));
    assert KeyCaseOf("Index") == Plain;
    KeyDocumentAt(key, val, "Index", f, now);
    assert Processed("Index", m["Index"], f, now) == m["Index"];
    assert key[66..][..4] == key[66..70];
  }

  /** `_PrefixCommentParentStakeIDToPostHash` (22): the parent's stake id
      is hex-encoded, and decodes back to the key's 33 bytes. */
  lemma CommentParentLayout(key: seq<Byte>, val: seq<Byte>, f: Foreign, now: string)
    requires |key| >= 42 && key[0] == 22
    ensures KeyDocument(key, val, f, now).Done?
    ensures var doc := KeyDocument(key, val, f, now).value;
      && ParentStakeIDKey in doc && doc[ParentStakeIDKey].Str?
      && HexDecode(doc[ParentStakeIDKey].s) == Some(key[1..34])
  {
    var m := KeyFields(key, val, now);
    LiteralCases();
    KeyDocumentAt(key, val, ParentStakeIDKey, f, now);
    assert Processed(ParentStakeIDKey, m[ParentStakeIDKey], f, now) == Str(HexEncode(key[1..34]));
    HexRoundTrip(key[1..34]);
  }

  /** The same record's eight-byte big-endian timestamp. */
  lemma CommentTimestamp(key: seq<Byte>, val: seq<Byte>, f: Foreign, now: string)
    requires |key| >= 42 && key[0] == 22
    ensures KeyDocument(key, val, f, now).Done?
    ensures var doc := KeyDocument(key, val, f, now).value;
      "TstampNanos" in doc && doc["TstampNanos"] == Num(BigEndian(key[34..42]))
  {
    var m := KeyFields(key, val, now);
    assert KeyCaseOf("TstampNanos") == Plain;
    KeyDocumentAt(key, val, "TstampNanos", f, now);
    assert key[34..42][..8] == key[34..42];
  }

  /** `_PrefixCommentParentStakeIDToPostHash` (22): the comment's post hash
      is the key's bytes from offset 42, copied into a 32-byte hash. */
  lemma CommentPostHash(key: seq<Byte>, val: seq<Byte>, f: Foreign, now: string)
    requires |key| >= 42 && key[0] == 22
    ensures KeyDocument(key, val, f, now).Done?
    ensures var doc := KeyDocument(key, val, f, now).value;
      && "PostHash" in doc && doc["PostHash"] == Str(f.hashString(CopyHash(key[42..])))
      && (|key| == 74 ==> doc["PostHash"] == Str(f.hashString(key[42..])))
  {
    assert KeyCaseOf("PostHash") == Plain;
    KeyDocumentAt(key, val, "PostHash", f, now);
    if |key| == 74 {
      CopyHashExact(key[42..]);
    }
  }

  /** `_PrefixProfileUsernameToProfilePubKey` (25): the username is the
      key's bytes after the tag, read back byte for byte, and the value is
      the owner's public key. */
  lemma UsernameLayout(key: seq<Byte>, val: seq<Byte>, f: Foreign, now: string)
    requires |key| >= 1 && key[0] == 25
    ensures KeyDocument(key, val, f, now).Done?
    ensures var doc := KeyDocument(key, val, f, now).value;
      && "Username" in doc && doc["Username"].Str?
      && IsByteString(doc["Username"].s) && StringBytes(doc["Username"].s) == key[1..]
      && PKIDKey in doc && doc[PKIDKey] == Str(f.pkToString(val))
  {
    var m := KeyFields(key, val, now);
    assert KeyCaseOf("Username") == Text;
    KeyDocumentAt(key, val, "Username", f, now);
    assert Processed("Username", m["Username"], f, now) == Str(GoString(key[1..]));
    GoStringRoundTrip(key[1..]);
    assert KeyCaseOf(PKIDKey) == PublicKeyBytes;
    KeyDocumentAt(key, val, PKIDKey, f, now);
    assert Processed(PKIDKey, m[PKIDKey], f, now) == Str(f.pkToString(val));
  }

  /** `_PrefixStakeIDTypeAmountStakeIDIndex` (26): byte 1 says whether the
      stake is on a post (zero) or a profile, bytes 2 to 10 hold the amount
      and the rest the stake id; neither is in the key switch, so both stay
      raw bytes. */
  lemma StakeIndexLayout(key: seq<Byte>, val: seq<Byte>, f: Foreign, now: string)
    requires |key| >= 10 && key[0] == 26
    ensures KeyDocument(key, val, f, now).Done?
    ensures var doc := KeyDocument(key, val, f, now).value;
      && "StakeType" in doc && doc["StakeType"] == Str(if key[1] == 0 then "Post" else "Profile")
      && "AmountNanos" in doc && doc["AmountNanos"] == ByteSlice(key[2..10])
      && "StakeID" in doc && doc["StakeID"] == ByteSlice(key[10..])
  {
    var m := KeyFields(key, val, now);
    assert KeyCaseOf("StakeType") == Plain;
    KeyDocumentAt(key, val, "StakeType", f, now);
    assert Processed("StakeType", m["StakeType"], f, now) == m["StakeType"];
    assert KeyCaseOf("AmountNanos") == Plain;
    KeyDocumentAt(key, val, "AmountNanos", f, now);
    assert Processed("AmountNanos", m["AmountNanos"], f, now) == m["AmountNanos"];
    assert KeyCaseOf("StakeID") == Plain;
    KeyDocumentAt(key, val, "StakeID", f, now);
    assert Processed("StakeID", m["StakeID"], f, now) == m["StakeID"];
  }

  /* ---------------------------------------------------------------------
     Single values and placeholders
     --------------------------------------------------------------------- */

  /** Single-value records are handled by the single-value cases. */
  lemma ValueTagDispatch(key: seq<Byte>, val: seq<Byte>, f: Foreign, now: string)
    requires |key| > 0 && ValueTag(key[0])
    ensures Document(key, Some(val), f, now) == ValueDocument(key[0], val, f, now)
  {
    TagFamilies(key[0]);
  }

  /** The counters (8, 10, 27) read the first eight bytes of the value as a
      big-endian number and panic on a shorter value. */
  lemma CounterValue(t: Byte, val: seq<Byte>, f: Foreign, now: string)
    requires CounterTag(t)
    ensures ValueDocument(t, val, f, now).Panic? <==> |val| < 8
    ensures |val| >= 8 ==>
      var doc := ValueDocument(t, val, f, now).value;
      && CounterName(t) in doc && doc[CounterName(t)].Num?
      && ToBigEndian(doc[CounterName(t)].n, 8) == val[..8]
  {
  }

  /** The chain tips (3, 4): a 32-byte value is the hash itself; a shorter
      one fills the front of a zeroed hash; a longer one leaves it zero. */
  lemma TipValue(t: Byte, val: seq<Byte>, f: Foreign, now: string)
    requires t == 3 || t == 4
    ensures ValueDocument(t, val, f, now).Done?
    ensures var doc := ValueDocument(t, val, f, now).value;
      && HashKey in doc
      && (|val| <= HashSize ==> doc[HashKey] == Str(f.hashString(val + Zeros(HashSize - |val|))))
      && (|val| > HashSize ==> doc[HashKey] == Str(f.hashString(Zeros(HashSize))))
  {
    var h := ValueCopyHash(val);
    if |val| <= HashSize {
      assert h == h[..|val|] + h[|val|..];
      assert h[|val|..] == Zeros(HashSize - |val|);
    }
  }

  /** The placeholders (9, 13, 16) ignore the record entirely: a prefix and
      the time are all they hold. */
  lemma PlaceholderValue(t: Byte, val: seq<Byte>, f: Foreign, now: string)
    requires t == 9 || t == 13 || t == 16
    ensures ValueDocument(t, val, f, now).Done?
    ensures ValueDocument(t, val, f, now).value.Keys == {PrefixKey, TimeKey}
    ensures forall other: seq<Byte> :: ValueDocument(t, other, f, now) == ValueDocument(t, val, f, now)
  {
  }

  /* ---------------------------------------------------------------------
     Records decoded from the value
     --------------------------------------------------------------------- */

  /** Decoded records are handled by the decoded-record cases. */
  lemma DecodedTagDispatch(key: seq<Byte>, val: seq<Byte>, f: Foreign, now: string)
    requires |key| > 0 && DecodedTag(key[0])
    ensures Document(key, Some(val), f, now) == DecodedDocument(key, val, f, now)
  {
    TagFamilies(key[0]);
  }

  /** A decoded record (other than 0, 36 and 40) yields a document exactly
      when its map has the shape the normaliser asserts, and the document is
      that map normalised, plus the labels. */
  lemma DecodedRecordNormalised(key: seq<Byte>, val: seq<Byte>, f: Foreign, now: string)
    requires |key| > 0 && DecodedTag(key[0]) && key[0] != 0 && key[0] != 36 && key[0] != 40
    requires DecoderResult(key[0], val, f).Some?
    ensures var m := DecoderResult(key[0], val, f).value; var r := DecodedDocument(key, val, f, now);
      && (r.Done? <==> ShapedMap(m))
      && (r.Done? ==> forall k | k != MetaKey && k != PrefixKey ::
            (k in r.value <==> k in SimplifyMap(m, f, now))
            && (k in r.value ==> r.value[k] == SimplifyMap(m, f, now)[k]))
  {
  }

  /** `_PrefixBlockHashToBlock` (0): the block's hash is read from the key
      after the tag. */
  lemma BlockRecordHash(key: seq<Byte>, val: seq<Byte>, f: Foreign, now: string)
    requires |key| > 0 && key[0] == 0 && DecodedDocument(key, val, f, now).Done?
    ensures var doc := DecodedDocument(key, val, f, now).value;
      && "BlockHash" in doc
      && doc["BlockHash"] == Str(f.hashString(CopyHash(key[1..])))
      && (|key| == 33 ==> doc["BlockHash"] == Str(f.hashString(key[1..])))
  {
    var m := DecoderResult(0, val, f).value["BlockHash" := BlockHash(CopyHash(key[1..]))];
    LabelNames();
    assert KeyCaseOf("BlockHash") == Plain;
    SimplifyMapAt(m, "BlockHash", f, now);
    assert "BlockHash" !in Parents(m, m.Keys, f);
    if |key| == 33 {
      CopyHashExact(key[1..]);
    }
  }

  /** `_PrefixPublicKeyToPKID` (36): a record without a non-nil PKID pointer
      panics; otherwise the PKID's bytes are printed as a public key. */
  lemma PublicKeyToPKIDRecord(key: seq<Byte>, val: seq<Byte>, f: Foreign, now: string)
    requires |key| > 0 && key[0] == 36 && DecoderResult(36, val, f).Some?
    ensures var m := DecoderResult(36, val, f).value; var r := DecodedDocument(key, val, f, now);
      && (!(PKIDKey in m && m[PKIDKey].PKIDPtr? && m[PKIDKey].pkid.Some?) ==> r.Panic?)
      && (r.Done? ==> PKIDKey in r.value && r.value[PKIDKey] == Str(f.pkToString(m[PKIDKey].pkid.value)))
  {
    var m := DecoderResult(36, val, f).value;
    if DecodedDocument(key, val, f, now).Done? {
      var m' := m[PKIDKey := ByteSlice(m[PKIDKey].pkid.value)];
      LabelNames();
      assert KeyCaseOf(PKIDKey) == PublicKeyBytes;
      SimplifyMapAt(m', PKIDKey, f, now);
      assert PKIDKey !in Parents(m', m'.Keys, f);
    }
  }

  /** `_KeyGlobalParams` (40) is the only decoded record that is not
      normalised: its fields are the decoded ones, untouched, plus labels. */
  lemma GlobalParamsUntouched(key: seq<Byte>, val: seq<Byte>, f: Foreign, now: string)
    requires |key| > 0 && key[0] == 40 && DecoderResult(40, val, f).Some?
    ensures var m := DecoderResult(40, val, f).value; var r := DecodedDocument(key, val, f, now);
      && r.Done?
      && r.value.Keys == m.Keys + {MetaKey, PrefixKey}
      && forall k | k in m && k != MetaKey && k != PrefixKey :: r.value[k] == m[k]
  {
  }
}

=== FILE: normalizer.dfy ===
/**
 The value normaliser, `SimplifyMap` in mongodb/sync_service.go.

 Go walks the map with `range` and rewrites it in place. Here the walk is
 `FoldKeys`, one `Step` per key in a given iteration order, and the result
 is characterised once and for all by `Visited(m, S)`: the map after the keys
 in `S` have been visited, whatever the order. `SimplifyMap` is
 `Visited(m, m.Keys)` plus the `Time` stamp, and `IterationOrderIrrelevant`
 proves that every order Go's runtime may choose gives exactly that map.
 */
module Normalizer {

  import opened Wrappers
  import opened Bytes
  import opened Values

  const TimeKey: string := "Time"
  const ParentHashKey: string := "ParentHash"
  const ParentStakeIDKey: string := "ParentStakeID"
  const HeaderKey: string := "Header"
  const TxnsKey: string := "Txns"

  /** Names whose `[]byte` value becomes `lib.PkToStringBoth(...)`. */
  const PublicKeyNames: set<string> := {
    "PKID", "PosterPublicKey", "FollowedPublicKey", "FollowedPKID", "FollowerPKID",
    "FollowedPublicKeys", "HoldingPublicKey", "PublicKey", "SenderPublicKey",
    "RecipientPublicKey" }

  /** Names whose `*lib.PKID` value becomes `lib.PkToStringBoth(...)`. */
  const PKIDPointerNames: set<string> := {"HODLerPKID", "CreatorPKID"}

  /** Names whose `[]byte` value is read as text. */
  const TextNames: set<string> := {"Body", "EncryptedText", "Username", "Description", "ProfilePic"}

  /** The two hash fields of a block header sub-map. */
  const HeaderHashNames: set<string> := {"PrevBlockHash", "TransactionMerkleRoot"}

  /** The case of the key switch a field name falls in. */
  datatype KeyCase = PublicKeyBytes | PKIDPointer | StakeIDHex | Text | Header | Txns | Plain

  /** The `switch key` of `SimplifyMap`. The names are grouped by length so
      that a name is only ever compared with the few cases of its own length;
      `KeySwitchNames` proves this agrees with the name sets above. */
  function KeyCaseOf(k: string): KeyCase {
    match |k|
    case 4 => if k == "PKID" then PublicKeyBytes else if k == "Body" then Text else if k == "Txns" then Txns else Plain
    case 6 => if k == "Header" then Header else Plain
    case 8 => if k == "Username" then Text else Plain
    case 9 => if k == "PublicKey" then PublicKeyBytes else Plain
    case 10 => if k == "ProfilePic" then Text else if k == "HODLerPKID" then PKIDPointer else Plain
    case 11 => if k == "CreatorPKID" then PKIDPointer else if k == "Description" then Text else Plain
    case 12 => if k == "FollowedPKID" || k == "FollowerPKID" then PublicKeyBytes else Plain
    case 13 => if k == "ParentStakeID" then StakeIDHex else if k == "EncryptedText" then Text else Plain
    case 15 => if k == "PosterPublicKey" || k == "SenderPublicKey" then PublicKeyBytes else Plain
    case 16 => if k == "HoldingPublicKey" then PublicKeyBytes else Plain
    case 17 => if k == "FollowedPublicKey" then PublicKeyBytes else Plain
    case 18 => if k == "FollowedPublicKeys" || k == "RecipientPublicKey" then PublicKeyBytes else Plain
    case _ => Plain
  }

  /** Every name the key switch rewrites from a byte representation. */
  predicate IsByteName(k: string) {
    KeyCaseOf(k) in {PublicKeyBytes, PKIDPointer, StakeIDHex, Text}
  }

  /* ---------------------------------------------------------------------
     Shapes the unchecked type assertions rely on
     --------------------------------------------------------------------- */

  /** Values the type switch turns into a string. */
  predicate BecomesString(v: Value) {
    || v.Str? || v.BlockHash? || v.UtxoType?
    || (v.BlockHashPtr? && v.ptr.Some?)
    || (v.BigIntPtr? && v.big.Some?)
  }

  /** Values the type switch removes from the map. */
  predicate Removes(v: Value) {
    v.StakeEntry? || v.BlockNodePtr?
  }

  /** The key switch's type assertion for name `k` succeeds on a non-nil `v`. */
  predicate NameOk(k: string, v: Value) {
    match KeyCaseOf(k)
    case PublicKeyBytes | StakeIDHex | Text => v.ByteSlice?
    case PKIDPointer => v.PKIDPtr? && v.pkid.Some?
    case Header => v.Nested? && forall h | h in HeaderHashNames :: h in v.fields && BecomesString(v.fields[h])
    case Txns => v.List?
    case Plain => true
  }

  /** Every `*lib.BlockNode` entry of `m` has the same parent. (With two
      different parents Go's result would depend on the iteration order.) */
  predicate ParentsAgree(m: FieldMap) {
    forall j, k | j in m && k in m && m[j].BlockNodePtr? && m[k].BlockNodePtr? ::
      m[j].node == m[k].node
  }

  /** A field map `SimplifyMap` accepts, nested maps included: every non-nil
      entry passes the key switch's assertion, and so do nested maps. */
  predicate ShapedMap(m: FieldMap)
    decreases Nested(m)
  {
    && (forall k | k in m ::
          m[k].Null? || (NameOk(k, m[k]) && (m[k].Nested? ==> ShapedMap(m[k].fields))))
    && ParentsAgree(m)
  }

  /** An entry `k: v` that `SimplifyMap` processes without panicking. */
  predicate ShapedValue(k: string, v: Value) {
    v.Null? || (NameOk(k, v) && (v.Nested? ==> ShapedMap(v.fields)))
  }

  /* ---------------------------------------------------------------------
     The two switches
     --------------------------------------------------------------------- */

  /** What the type switch does to a non-nil entry. */
  datatype TypeAction = Keep(v: Value) | Delete | FlattenParent(parentHash: Value)

  /** The `ParentHash` a `*lib.BlockNode` leaves behind: its hash, or null. */
  function ParentValue(node: Option<seq<Byte>>, f: Foreign): (v: Value)
    ensures v.Str? || v.Null?
    ensures v.Null? <==> node.None?
  {
    match node
    case Some(h) => Str(f.hashString(h))
    case None => Null
  }

  function TypeRewrite(v: Value, f: Foreign, now: string): (a: TypeAction)
    requires v.Nested? ==> ShapedMap(v.fields)
    ensures a.Keep? <==> !Removes(v)
    ensures a.Keep? && BecomesString(v) ==> a.v.Str?
    ensures a.Keep? && v.Nested? ==> a.v.Nested?
    decreases v, 2
  {
    match v
    case Nested(sub) => Keep(Nested(SimplifyMap(sub, f, now)))
    case UtxoType(c) => Keep(Str(f.utxoTypeString(c)))
    case BlockHash(h) => Keep(Str(f.hashString(h)))
    case BlockHashPtr(p) => Keep(if p.Some? then Str(f.hashString(p.value)) else Null)
    case BlockNodePtr(p) => FlattenParent(ParentValue(p, f))
    case BigIntPtr(b) => Keep(if b.Some? then Str(f.bigIntString(b.value)) else Null)
    case StakeEntry => Delete
    case _ => Keep(v)
  }

  /** The key switch's type assertions hold for the entry as the type switch
      left it (`cur`) and as `range` produced it (`orig`). */
  predicate NameReady(k: string, cur: Value, orig: Value) {
    match KeyCaseOf(k)
    case PublicKeyBytes | StakeIDHex | Text => cur.ByteSlice?
    case PKIDPointer => orig.PKIDPtr? && orig.pkid.Some?
    case Header =>
      cur.Nested? && forall h | h in HeaderHashNames ::
        (h in cur.fields && (cur.fields[h].Str? || (cur.fields[h].BlockHashPtr? && cur.fields[h].ptr.Some?)))
    case Txns | Plain => true
  }

  /** The `Header` case: hash fields that are not yet strings are stringified. */
  function HeaderFix(sub: FieldMap, f: Foreign): (r: FieldMap)
    requires forall h | h in HeaderHashNames ::
      (h in sub && (sub[h].Str? || (sub[h].BlockHashPtr? && sub[h].ptr.Some?)))
    ensures r.Keys == sub.Keys
    ensures forall h | h in HeaderHashNames :: r[h].Str?
    ensures forall k | k in sub && k !in HeaderHashNames :: r[k] == sub[k]
  {
    var prev := "PrevBlockHash";
    var root := "TransactionMerkleRoot";
    var sub1 := if sub[prev].Str? then sub else sub[prev := Str(f.hashString(sub[prev].ptr.value))];
    if sub1[root].Str? then sub1 else sub1[root := Str(f.hashString(sub1[root].ptr.value))]
  }

  function NameRewrite(k: string, cur: Value, orig: Value, f: Foreign): Value
    requires NameReady(k, cur, orig)
  {
    match KeyCaseOf(k)
    case PublicKeyBytes => Str(f.pkToString(cur.bytes))
    case PKIDPointer => Str(f.pkToString(orig.pkid.value))
    case StakeIDHex => Str(HexEncode(cur.bytes))
    case Text => Str(GoString(cur.bytes))
    case Header => Nested(HeaderFix(cur.fields, f))
    case Txns | Plain => cur // "Txns" is reassigned unchanged; other names are not in the switch
  }

  /** What a visited entry that stays in the map becomes. */
  function Processed(k: string, v: Value, f: Foreign, now: string): (r: Value)
    requires ShapedValue(k, v) && !Removes(v)
    ensures !IsByteName(k) && BecomesString(v) ==> r.Str?
    decreases v, 3
  {
    if v.Null? then v
    else
      var cur := TypeRewrite(v, f, now).v;
      assert KeyCaseOf(k) == Header ==> forall h | h in HeaderHashNames :: h in cur.fields && cur.fields[h].Str?;
      NameRewrite(k, cur, v, f)
  }

  /* ---------------------------------------------------------------------
     The result of visiting a set of keys, and SimplifyMap
     --------------------------------------------------------------------- */

  /** `ParentHash` written by the visited `*lib.BlockNode` entries (at most
      one key; the entries agree on its value). */
  function Parents(m: FieldMap, S: set<string>, f: Foreign): (p: FieldMap)
    requires ParentsAgree(m)
    ensures p.Keys <= {ParentHashKey}
    ensures ParentHashKey in p <==> exists j :: j in S && j in m && m[j].BlockNodePtr?
  {
    map j | j in S && j in m && m[j].BlockNodePtr? :: ParentHashKey := ParentValue(m[j].node, f)
  }

  /** The map once the keys in `S` have been visited: visited entries are
      rewritten or removed, the rest are untouched, and a visited block-node
      reference has left its `ParentHash`. */
  function Visited(m: FieldMap, S: set<string>, f: Foreign, now: string): (r: FieldMap)
    requires ShapedMap(m)
    decreases Nested(m), 0
  {
    var base := map k | k in m && !(k in S && Removes(m[k])) ::
      if k in S then Processed(k, m[k], f, now) else m[k];
    base + Parents(m, S, f)
  }

  /** `SimplifyMap(&docMap)` with `time.Now().String() == now`. */
  function SimplifyMap(m: FieldMap, f: Foreign, now: string): (r: FieldMap)
    requires ShapedMap(m)
    ensures TimeKey in r && r[TimeKey] == Str(now)
    ensures forall k | k in m && k != TimeKey && k != ParentHashKey && !IsByteName(k) && BecomesString(m[k]) ::
      k in r && r[k].Str?
    decreases Nested(m), 1
  {
    var v := Visited(m, m.Keys, f, now);
    assert forall k | k in m && k != TimeKey && k != ParentHashKey && !IsByteName(k) && BecomesString(m[k]) ::
      k in v && v[k] == Processed(k, m[k], f, now) && v[k].Str?;
    v[TimeKey := Str(now)]
  }

  /* ---------------------------------------------------------------------
     Go's range loop
     --------------------------------------------------------------------- */

  /** One iteration of the `range` loop, for key `k`. */
  function Step(cur: FieldMap, k: string, f: Foreign, now: string): (r: FieldMap)
    requires k in cur ==> ShapedValue(k, cur[k])
  {
    if k !in cur || cur[k].Null? then cur
    else
      match TypeRewrite(cur[k], f, now)
      case Delete => cur - {k}
      case FlattenParent(p) => (cur - {k})[ParentHashKey := p]
      case Keep(v) => cur[k := NameRewrite(k, v, cur[k], f)]
  }

  predicate Distinct(order: seq<string>) {
    forall i, j | 0 <= i < j < |order| :: order[i] != order[j]
  }

  /** The loop over `order`, visiting each key once. */
  function FoldKeys(cur: FieldMap, order: seq<string>, f: Foreign, now: string): (r: FieldMap)
    requires Distinct(order)
    requires forall i | 0 <= i < |order| && order[i] in cur :: ShapedValue(order[i], cur[order[i]])
    decreases |order|
  {
    if |order| == 0 then cur
    else
      var k := order[0];
      var next := Step(cur, k, f, now);
      assert forall i | 1 <= i < |order| && order[i] in next ::
        (order[i] in cur && next[order[i]] == cur[order[i]]) || (order[i] == ParentHashKey && (next[order[i]].Str? || next[order[i]].Null?));
      FoldKeys(next, order[1..], f, now)
  }

  /** `SimplifyMap` exactly as Go runs it, for one iteration order. */
  function SimplifyInOrder(m: FieldMap, order: seq<string>, f: Foreign, now: string): FieldMap
    requires ShapedMap(m) && Distinct(order)
  {
    FoldKeys(m, order, f, now)[TimeKey := Str(now)]
  }
}

=== FILE: normalizer_facts.dfy ===
/**
 What `SimplifyMap` guarantees: Go's iteration order does not matter, each
 rewrite of the type and key switches, the shape of the result, and how far
 a second application is (and is not) harmless.
 */
module NormalizerFacts {

  import opened Wrappers
  import opened Bytes
  import opened Values
  import opened Normalizer

  /* ---------------------------------------------------------------------
     Iteration order
     --------------------------------------------------------------------- */

  /** Before any key is visited the map is the input. */
  lemma VisitedNothing(m: FieldMap, f: Foreign, now: string)
    requires ShapedMap(m)
    ensures Visited(m, {}, f, now) == m
  {
    var v := Visited(m, {}, f, now);
    assert Parents(m, {}, f) == map[];
    assert forall x | x in m :: x in v && v[x] == m[x];
  }

  /** An entry not yet visited is the input's, except a `ParentHash` that a
      visited block-node reference has already written. */
  lemma UnvisitedEntry(m: FieldMap, S: set<string>, k: string, f: Foreign, now: string)
    requires ShapedMap(m) && k !in S
    ensures var cur := Visited(m, S, f, now);
      && (k in cur && ParentHashKey !in Parents(m, S, f) ==> k in m && cur[k] == m[k])
      && (k != ParentHashKey && k in cur ==> k in m && cur[k] == m[k])
      && (k == ParentHashKey && ParentHashKey in Parents(m, S, f) ==> k in cur && (cur[k].Str? || cur[k].Null?))
      && (k in cur ==> ShapedValue(k, cur[k]))
  {
    var cur := Visited(m, S, f, now);
    var p := Parents(m, S, f);
    VisitedAt(m, S, k, f, now);
    if k in p {
      var j :| j in S && j in m && m[j].BlockNodePtr?;
      assert p[k] == ParentValue(m[j].node, f);
      assert cur[k] == p[k];
    } else if k in cur {
      assert k in m && cur[k] == m[k];
    }
  }

  /** Visiting one more key is exactly one iteration of Go's loop. */
  lemma StepVisited(m: FieldMap, S: set<string>, k: string, f: Foreign, now: string)
    requires ShapedMap(m) && k in m && k !in S
    ensures k in Visited(m, S, f, now) ==> ShapedValue(k, Visited(m, S, f, now)[k])
    ensures Step(Visited(m, S, f, now), k, f, now) == Visited(m, S + {k}, f, now)
  {
    UnvisitedEntry(m, S, k, f, now);
    if k == ParentHashKey && ParentHashKey in Parents(m, S, f) {
      StepFlattenedParent(m, S, k, f, now);
    } else if m[k].Null? {
      StepNull(m, S, k, f, now);
    } else if m[k].StakeEntry? {
      StepDelete(m, S, k, f, now);
    } else if m[k].BlockNodePtr? {
      StepFlatten(m, S, k, f, now);
    } else {
      StepKeep(m, S, k, f, now);
    }
  }

  /** The key switch picks each case for exactly the names listed for it. */
  lemma KeySwitchNames(k: string)
    ensures KeyCaseOf(k) == PublicKeyBytes <==> k in PublicKeyNames
    ensures KeyCaseOf(k) == PKIDPointer <==> k in PKIDPointerNames
    ensures KeyCaseOf(k) == StakeIDHex <==> k == ParentStakeIDKey
    ensures KeyCaseOf(k) == Text <==> k in TextNames
    ensures KeyCaseOf(k) == Header <==> k == HeaderKey
    ensures KeyCaseOf(k) == Txns <==> k == TxnsKey
  {
  }

  lemma HeaderHashCase(h: string)
    requires h in HeaderHashNames
    ensures KeyCaseOf(h) == Plain && h != TimeKey && h != ParentHashKey
  {
  }

  lemma LiteralCases()
    ensures KeyCaseOf(ParentStakeIDKey) == StakeIDHex
    ensures KeyCaseOf(HeaderKey) == Header && KeyCaseOf(TxnsKey) == Txns
    ensures KeyCaseOf(ParentHashKey) == Plain && KeyCaseOf(TimeKey) == Plain
    ensures ParentStakeIDKey != TimeKey && ParentStakeIDKey != ParentHashKey
    ensures HeaderKey != TimeKey && HeaderKey != ParentHashKey
    ensures TxnsKey != TimeKey && TxnsKey != ParentHashKey
  {
  }

  /** `Visited` entry by entry. */
  lemma VisitedAt(m: FieldMap, S: set<string>, x: string, f: Foreign, now: string)
    requires ShapedMap(m)
    ensures x in Visited(m, S, f, now) <==> (x in m && !(x in S && Removes(m[x]))) || x in Parents(m, S, f)
    ensures x in Parents(m, S, f) ==> Visited(m, S, f, now)[x] == Parents(m, S, f)[x]
    ensures x !in Parents(m, S, f) && x in m && x !in S ==> Visited(m, S, f, now)[x] == m[x]
    ensures x !in Parents(m, S, f) && x in m && x in S && !Removes(m[x]) ==>
      Visited(m, S, f, now)[x] == Processed(x, m[x], f, now)
  {
  }

  /** Visiting a key that holds no block-node reference leaves `ParentHash` alone. */
  lemma ParentsNotBlockNode(m: FieldMap, S: set<string>, k: string, f: Foreign)
    requires ParentsAgree(m) && k in m && !m[k].BlockNodePtr?
    ensures Parents(m, S + {k}, f) == Parents(m, S, f)
  {
  }

  /** A string or null under a name outside the key switch is left as is. */
  lemma StepPlainString(cur: FieldMap, k: string, f: Foreign, now: string)
    requires k in cur && KeyCaseOf(k) == Plain && (cur[k].Str? || cur[k].Null?)
    ensures Step(cur, k, f, now) == cur
  {
    if cur[k].Str? {
      assert TypeRewrite(cur[k], f, now) == Keep(cur[k]);
      assert NameRewrite(k, cur[k], cur[k], f) == cur[k];
    }
  }

  /** Once a block-node reference has been visited, `ParentHash` is settled. */
  lemma ParentsSettled(m: FieldMap, S: set<string>, k: string, f: Foreign)
    requires ParentsAgree(m) && ParentHashKey in Parents(m, S, f)
    ensures Parents(m, S + {k}, f) == Parents(m, S, f)
  {
    var p := Parents(m, S, f);
    var q := Parents(m, S + {k}, f);
    var j :| j in S && j in m && m[j].BlockNodePtr?;
    assert ParentHashKey in q;
    assert p[ParentHashKey] == ParentValue(m[j].node, f);
    assert q[ParentHashKey] == ParentValue(m[j].node, f);
  }

  /** Visiting `k` changes no entry other than `k` and `ParentHash`. */
  lemma VisitedOthers(m: FieldMap, S: set<string>, k: string, x: string, f: Foreign, now: string)
    requires ShapedMap(m) && x != k && x != ParentHashKey
    ensures x in Visited(m, S + {k}, f, now) <==> x in Visited(m, S, f, now)
    ensures x in Visited(m, S, f, now) ==> Visited(m, S + {k}, f, now)[x] == Visited(m, S, f, now)[x]
  {
    assert x !in Parents(m, S, f) && x !in Parents(m, S + {k}, f);
    assert (x in S + {k}) == (x in S);
    VisitedAt(m, S, x, f, now);
    VisitedAt(m, S + {k}, x, f, now);
  }

  /** Two maps with the same entries are equal. */
  lemma SameMap(a: FieldMap, b: FieldMap)
    requires forall x :: (x in a <==> x in b) && (x in a ==> a[x] == b[x])
    ensures a == b
  {
  }

  lemma StepFlattenedParent(m: FieldMap, S: set<string>, k: string, f: Foreign, now: string)
    requires ShapedMap(m) && k in m && k !in S
    requires k == ParentHashKey && ParentHashKey in Parents(m, S, f)
    requires k in Visited(m, S, f, now) && (Visited(m, S, f, now)[k].Str? || Visited(m, S, f, now)[k].Null?)
    ensures Step(Visited(m, S, f, now), k, f, now) == Visited(m, S + {k}, f, now)
  {
    var cur := Visited(m, S, f, now);
    var nxt := Visited(m, S + {k}, f, now);
    ParentsSettled(m, S, k, f);
    LiteralCases();
    StepPlainString(cur, k, f, now);
    forall x ensures (x in nxt <==> x in cur) && (x in nxt ==> nxt[x] == cur[x]) {
      if x == k {
        VisitedAt(m, S, x, f, now);
        VisitedAt(m, S + {k}, x, f, now);
      } else {
        VisitedOthers(m, S, k, x, f, now);
      }
    }
    SameMap(nxt, cur);
  }

  lemma StepNull(m: FieldMap, S: set<string>, k: string, f: Foreign, now: string)
    requires ShapedMap(m) && k in m && k !in S && m[k].Null?
    requires k in Visited(m, S, f, now) && Visited(m, S, f, now)[k] == m[k]
    ensures Step(Visited(m, S, f, now), k, f, now) == Visited(m, S + {k}, f, now)
  {
    var cur := Visited(m, S, f, now);
    var nxt := Visited(m, S + {k}, f, now);
    ParentsNotBlockNode(m, S, k, f);
    forall x ensures (x in nxt <==> x in cur) && (x in nxt ==> nxt[x] == cur[x]) {
      if x == k || x == ParentHashKey {
        VisitedAt(m, S, x, f, now);
        VisitedAt(m, S + {k}, x, f, now);
      } else {
        VisitedOthers(m, S, k, x, f, now);
      }
    }
    SameMap(nxt, cur);
  }

  lemma StepDelete(m: FieldMap, S: set<string>, k: string, f: Foreign, now: string)
    requires ShapedMap(m) && k in m && k !in S && m[k].StakeEntry?
    requires !(k == ParentHashKey && ParentHashKey in Parents(m, S, f))
    requires k in Visited(m, S, f, now) && Visited(m, S, f, now)[k] == m[k]
    ensures Step(Visited(m, S, f, now), k, f, now) == Visited(m, S + {k}, f, now)
  {
    var cur := Visited(m, S, f, now);
    var nxt := Visited(m, S + {k}, f, now);
    var step := cur - {k};
    assert Step(cur, k, f, now) == step;
    ParentsNotBlockNode(m, S, k, f);
    forall x ensures (x in nxt <==> x in step) && (x in nxt ==> nxt[x] == step[x]) {
      if x == k || x == ParentHashKey {
        VisitedAt(m, S, x, f, now);
        VisitedAt(m, S + {k}, x, f, now);
      } else {
        VisitedOthers(m, S, k, x, f, now);
      }
    }
    SameMap(nxt, step);
  }

  lemma StepFlatten(m: FieldMap, S: set<string>, k: string, f: Foreign, now: string)
    requires ShapedMap(m) && k in m && k !in S && m[k].BlockNodePtr?
    requires !(k == ParentHashKey && ParentHashKey in Parents(m, S, f))
    requires k in Visited(m, S, f, now) && Visited(m, S, f, now)[k] == m[k]
    ensures Step(Visited(m, S, f, now), k, f, now) == Visited(m, S + {k}, f, now)
  {
    var cur := Visited(m, S, f, now);
    var nxt := Visited(m, S + {k}, f, now);
    var pv := ParentValue(m[k].node, f);
    var step := (cur - {k})[ParentHashKey := pv];
    assert Step(cur, k, f, now) == step;
    assert ParentHashKey in Parents(m, S + {k}, f) && Parents(m, S + {k}, f)[ParentHashKey] == pv;
    forall x ensures (x in nxt <==> x in step) && (x in nxt ==> nxt[x] == step[x]) {
      if x == ParentHashKey {
        VisitedAt(m, S + {k}, x, f, now);
      } else if x == k {
        VisitedAt(m, S, x, f, now);
        VisitedAt(m, S + {k}, x, f, now);
      } else {
        VisitedOthers(m, S, k, x, f, now);
      }
    }
    SameMap(nxt, step);
  }

  lemma StepKeep(m: FieldMap, S: set<string>, k: string, f: Foreign, now: string)
    requires ShapedMap(m) && k in m && k !in S && !m[k].Null? && !Removes(m[k])
    requires !(k == ParentHashKey && ParentHashKey in Parents(m, S, f))
    requires k in Visited(m, S, f, now) && Visited(m, S, f, now)[k] == m[k]
    ensures Step(Visited(m, S, f, now), k, f, now) == Visited(m, S + {k}, f, now)
  {
    var cur := Visited(m, S, f, now);
    var nxt := Visited(m, S + {k}, f, now);
    var step := cur[k := Processed(k, m[k], f, now)];
    assert Step(cur, k, f, now) == step;
    ParentsNotBlockNode(m, S, k, f);
    forall x ensures (x in nxt <==> x in step) && (x in nxt ==> nxt[x] == step[x]) {
      if x == k || x == ParentHashKey {
        VisitedAt(m, S, x, f, now);
        VisitedAt(m, S + {k}, x, f, now);
      } else {
        VisitedOthers(m, S, k, x, f, now);
      }
    }
    SameMap(nxt, step);
  }

  function KeySet(order: seq<string>): (s: set<string>)
    ensures forall x :: x in s <==> x in order
  {
    if |order| == 0 then {} else {order[0]} + KeySet(order[1..])
  }

  /** Visiting the keys of `rest` one after another, from the state where
      `S` has been visited, reaches the state where both have. */
  lemma {:induction false} FoldVisited(m: FieldMap, S: set<string>, rest: seq<string>, f: Foreign, now: string)
    requires ShapedMap(m) && Distinct(rest)
    requires forall i | 0 <= i < |rest| :: rest[i] in m && rest[i] !in S
    ensures forall i | 0 <= i < |rest| && rest[i] in Visited(m, S, f, now) ::
      ShapedValue(rest[i], Visited(m, S, f, now)[rest[i]])
    ensures FoldKeys(Visited(m, S, f, now), rest, f, now) == Visited(m, S + KeySet(rest), f, now)
    decreases |rest|
  {
    forall i | 0 <= i < |rest|
      ensures rest[i] in Visited(m, S, f, now) ==> ShapedValue(rest[i], Visited(m, S, f, now)[rest[i]])
    {
      UnvisitedEntry(m, S, rest[i], f, now);
    }
    if |rest| == 0 {
      assert S + KeySet(rest) == S;
    } else {
      var k := rest[0];
      StepVisited(m, S, k, f, now);
      FoldVisited(m, S + {k}, rest[1..], f, now);
      assert S + {k} + KeySet(rest[1..]) == S + KeySet(rest);
    }
  }

  /** Go ranges over a map in an unspecified order; every order that visits
      each key once gives `SimplifyMap`'s result. */
  lemma IterationOrderIrrelevant(m: FieldMap, order: seq<string>, f: Foreign, now: string)
    requires ShapedMap(m) && Distinct(order)
    requires forall k :: k in m <==> k in order
    ensures SimplifyInOrder(m, order, f, now) == SimplifyMap(m, f, now)
  {
    VisitedNothing(m, f, now);
    FoldVisited(m, {}, order, f, now);
    assert {} + KeySet(order) == m.Keys;
    assert FoldKeys(m, order, f, now) == Visited(m, m.Keys, f, now);
  }

  /* ---------------------------------------------------------------------
     The rewrites, one at a time
     --------------------------------------------------------------------- */

  /** `SimplifyMap` entry by entry. */
  lemma SimplifyMapAt(m: FieldMap, x: string, f: Foreign, now: string)
    requires ShapedMap(m)
    ensures var r := SimplifyMap(m, f, now); var p := Parents(m, m.Keys, f);
      && (x == TimeKey ==> x in r && r[x] == Str(now))
      && (x != TimeKey ==> (x in r <==> (x in m && !Removes(m[x])) || x in p))
      && (x != TimeKey && x in p ==> r[x] == p[x])
      && (x != TimeKey && x !in p && x in m && !Removes(m[x]) ==> r[x] == Processed(x, m[x], f, now))
  {
    VisitedAt(m, m.Keys, x, f, now);
  }

  /** Nil entries are skipped by both switches. */
  lemma NilEntriesUntouched(m: FieldMap, k: string, f: Foreign, now: string)
    requires ShapedMap(m) && k in m && m[k].Null?
    requires k != TimeKey && k != ParentHashKey
    ensures k in SimplifyMap(m, f, now) && SimplifyMap(m, f, now)[k] == Null
  {
    SimplifyMapAt(m, k, f, now);
  }

  /** A nil `*lib.BlockHash` or `*big.Int` becomes null; a non-nil one, or a
      `lib.BlockHash` or `lib.UtxoType` value, becomes its string form. */
  lemma HandlesBecomeStrings(m: FieldMap, k: string, f: Foreign, now: string)
    requires ShapedMap(m) && k in m
    requires k != TimeKey && k != ParentHashKey
    ensures var r := SimplifyMap(m, f, now);
      && (m[k] == BlockHashPtr(None) || m[k] == BigIntPtr(None) ==> k in r && r[k] == Null)
      && (m[k].BlockHashPtr? && m[k].ptr.Some? ==> k in r && r[k] == Str(f.hashString(m[k].ptr.value)))
      && (m[k].BigIntPtr? && m[k].big.Some? ==> k in r && r[k] == Str(f.bigIntString(m[k].big.value)))
      && (m[k].BlockHash? ==> k in r && r[k] == Str(f.hashString(m[k].hash)))
      && (m[k].UtxoType? ==> k in r && r[k] == Str(f.utxoTypeString(m[k].code)))
  {
    var v := m[k];
    if v.BlockHashPtr? || v.BigIntPtr? || v.BlockHash? || v.UtxoType? {
      assert ShapedValue(k, v);
      assert KeyCaseOf(k) == Plain;
      SimplifyMapAt(m, k, f, now);
      assert k !in Parents(m, m.Keys, f);
      assert Processed(k, v, f, now) == TypeRewrite(v, f, now).v;
    }
  }

  /** A `lib.StakeEntry` field is deleted. */
  lemma StakeEntriesDeleted(m: FieldMap, k: string, f: Foreign, now: string)
    requires ShapedMap(m) && k in m && m[k].StakeEntry?
    requires k != TimeKey && k != ParentHashKey
    ensures k !in SimplifyMap(m, f, now)
  {
    SimplifyMapAt(m, k, f, now);
  }

  /** A `*lib.BlockNode` field is removed and leaves `ParentHash`: the
      parent's hash string, or null for a nil parent. */
  lemma BlockNodeFlattened(m: FieldMap, k: string, f: Foreign, now: string)
    requires ShapedMap(m) && k in m && m[k].BlockNodePtr?
    requires k != TimeKey
    ensures var r := SimplifyMap(m, f, now);
      && (k != ParentHashKey ==> k !in r)
      && ParentHashKey in r
      && r[ParentHashKey] == (if m[k].node.Some? then Str(f.hashString(m[k].node.value)) else Null)
  {
    SimplifyMapAt(m, k, f, now);
    SimplifyMapAt(m, ParentHashKey, f, now);
    var p := Parents(m, m.Keys, f);
    assert ParentHashKey in p && p[ParentHashKey] == ParentValue(m[k].node, f);
  }

  /** `ParentStakeID` becomes lower-case hex: two digits per byte, decoding
      back to the original bytes. */
  lemma ParentStakeIDHex(m: FieldMap, f: Foreign, now: string)
    requires ShapedMap(m) && ParentStakeIDKey in m && m[ParentStakeIDKey].ByteSlice?
    ensures var r := SimplifyMap(m, f, now); var b := m[ParentStakeIDKey].bytes;
      && ParentStakeIDKey in r && r[ParentStakeIDKey].Str?
      && |r[ParentStakeIDKey].s| == 2 * |b|
      && (forall i | 0 <= i < |r[ParentStakeIDKey].s| :: IsHexDigit(r[ParentStakeIDKey].s[i]))
      && HexDecode(r[ParentStakeIDKey].s) == Some(b)
  {
    SimplifyMapAt(m, ParentStakeIDKey, f, now);
    LiteralCases();
    assert ParentStakeIDKey != TimeKey && ParentStakeIDKey != ParentHashKey;
    HexRoundTrip(m[ParentStakeIDKey].bytes);
  }

  /** `Body`, `EncryptedText`, `Username`, `Description` and `ProfilePic`
      become the same bytes read as a string. */
  lemma TextFieldsAsStrings(m: FieldMap, k: string, f: Foreign, now: string)
    requires ShapedMap(m) && k in TextNames && k in m && m[k].ByteSlice?
    ensures var r := SimplifyMap(m, f, now);
      && k in r && r[k].Str? && IsByteString(r[k].s) && StringBytes(r[k].s) == m[k].bytes
  {
    KeySwitchNames(k);
    LiteralCases();
    var b := m[k].bytes;
    SimplifyMapAt(m, k, f, now);
    assert k != TimeKey && k !in Parents(m, m.Keys, f);
    assert Processed(k, m[k], f, now) == Str(GoString(b));
    GoStringRoundTrip(b);
  }

  /** Public-key fields given as bytes become `lib.PkToStringBoth` of them. */
  lemma PublicKeyBytesAsStrings(m: FieldMap, k: string, f: Foreign, now: string)
    requires ShapedMap(m) && k in PublicKeyNames && k in m && m[k].ByteSlice?
    ensures var r := SimplifyMap(m, f, now); k in r && r[k] == Str(f.pkToString(m[k].bytes))
  {
    KeySwitchNames(k);
    LiteralCases();
    SimplifyMapAt(m, k, f, now);
    assert k !in Parents(m, m.Keys, f);
    assert Processed(k, m[k], f, now) == Str(f.pkToString(m[k].bytes));
  }

  /** `HODLerPKID` and `CreatorPKID`, given as `*lib.PKID`, become
      `lib.PkToStringBoth` of the identifier's bytes. */
  lemma PKIDPointersAsStrings(m: FieldMap, k: string, f: Foreign, now: string)
    requires ShapedMap(m) && k in PKIDPointerNames && k in m && m[k].PKIDPtr? && m[k].pkid.Some?
    ensures var r := SimplifyMap(m, f, now); k in r && r[k] == Str(f.pkToString(m[k].pkid.value))
  {
    KeySwitchNames(k);
    LiteralCases();
    SimplifyMapAt(m, k, f, now);
    assert k !in Parents(m, m.Keys, f);
    assert Processed(k, m[k], f, now) == Str(f.pkToString(m[k].pkid.value));
  }

  /** A nested map (other than `Header`) is normalised in turn, with its own
      `Time` stamp. */
  lemma NestedMapsNormalised(m: FieldMap, k: string, sub: FieldMap, f: Foreign, now: string)
    requires ShapedMap(m) && k in m && m[k] == Nested(sub)
    requires k != TimeKey && k != ParentHashKey && KeyCaseOf(k) == Plain
    ensures ShapedMap(sub)
    ensures var r := SimplifyMap(m, f, now);
      && k in r && r[k] == Nested(SimplifyMap(sub, f, now))
      && TimeKey in r[k].fields && r[k].fields[TimeKey] == Str(now)
  {
    SimplifyMapAt(m, k, f, now);
    assert k !in Parents(m, m.Keys, f);
    assert Processed(k, m[k], f, now) == Nested(SimplifyMap(sub, f, now));
  }

  /** `Txns` passes through unchanged. */
  lemma TxnsUnchanged(m: FieldMap, f: Foreign, now: string)
    requires ShapedMap(m) && TxnsKey in m
    ensures var r := SimplifyMap(m, f, now); TxnsKey in r && r[TxnsKey] == m[TxnsKey]
  {
    LiteralCases();
    SimplifyMapAt(m, TxnsKey, f, now);
    assert TxnsKey !in Parents(m, m.Keys, f);
    assert m[TxnsKey].List? || m[TxnsKey].Null?;
    assert Processed(TxnsKey, m[TxnsKey], f, now) == m[TxnsKey];
  }

  /** On a header whose hash fields are already strings the fix changes nothing. */
  lemma HeaderFixKeepsStrings(sub: FieldMap, f: Foreign)
    requires forall h | h in HeaderHashNames :: h in sub && sub[h].Str?
    ensures HeaderFix(sub, f) == sub
  {
  }

  /** Normalising a header sub-map turns both of its hash fields into strings. */
  lemma HeaderSubMapStrings(sub: FieldMap, f: Foreign, now: string)
    requires ShapedMap(sub)
    requires forall h | h in HeaderHashNames :: h in sub && BecomesString(sub[h])
    ensures var r := SimplifyMap(sub, f, now); forall h | h in HeaderHashNames :: h in r && r[h].Str?
  {
    forall h | h in HeaderHashNames ensures !IsByteName(h) && h != TimeKey && h != ParentHashKey {
      HeaderHashCase(h);
    }
  }

  /** A shaped `Header` entry is a shaped map with both hash fields present. */
  lemma HeaderShape(m: FieldMap, sub: FieldMap)
    requires ShapedMap(m) && HeaderKey in m && m[HeaderKey] == Nested(sub)
    ensures ShapedMap(sub)
    ensures forall h | h in HeaderHashNames :: h in sub && BecomesString(sub[h])
  {
    LiteralCases();
    assert NameOk(HeaderKey, m[HeaderKey]);
  }

  /** The `Header` entry as the loop leaves it. */
  lemma HeaderProcessed(sub: FieldMap, f: Foreign, now: string)
    requires ShapedMap(sub)
    requires forall h | h in HeaderHashNames :: h in sub && BecomesString(sub[h])
    ensures ShapedValue(HeaderKey, Nested(sub))
    ensures Processed(HeaderKey, Nested(sub), f, now) == Nested(SimplifyMap(sub, f, now))
  {
    LiteralCases();
    var sub' := SimplifyMap(sub, f, now);
    HeaderSubMapStrings(sub, f, now);
    HeaderFixKeepsStrings(sub', f);
    assert TypeRewrite(Nested(sub), f, now) == Keep(Nested(sub'));
    assert NameRewrite(HeaderKey, Nested(sub'), Nested(sub), f) == Nested(HeaderFix(sub', f));
  }

  /** The `Header` sub-map is normalised and its two hash fields are strings. */
  lemma HeaderHashesAsStrings(m: FieldMap, sub: FieldMap, f: Foreign, now: string)
    requires ShapedMap(m) && HeaderKey in m && m[HeaderKey] == Nested(sub)
    ensures ShapedMap(sub)
    ensures var r := SimplifyMap(m, f, now);
      && HeaderKey in r && r[HeaderKey] == Nested(SimplifyMap(sub, f, now))
      && (forall h | h in HeaderHashNames :: h in r[HeaderKey].fields && r[HeaderKey].fields[h].Str?)
  {
    HeaderShape(m, sub);
    HeaderSubMapStrings(sub, f, now);
    HeaderProcessed(sub, f, now);
    LiteralCases();
    SimplifyMapAt(m, HeaderKey, f, now);
    assert HeaderKey !in Parents(m, m.Keys, f);
  }

  /** The keys of the result: every input key except deleted stake entries
      and flattened block-node references, plus `Time`, plus `ParentHash`
      when there was a block-node reference. */
  lemma SimplifyMapKeys(m: FieldMap, f: Foreign, now: string)
    requires ShapedMap(m)
    ensures SimplifyMap(m, f, now).Keys
         == (set k | k in m && !Removes(m[k])) + {TimeKey}
          + (if exists k :: k in m && m[k].BlockNodePtr? then {ParentHashKey} else {})
  {
    var kept := set k | k in m && !Removes(m[k]);
    var flat := ParentKeys(m, f);
    SimplifyMapMembers(m, kept, f, now);
    SameKeys(SimplifyMap(m, f, now), kept + {TimeKey} + flat);
  }

  lemma SimplifyMapMembers(m: FieldMap, kept: set<string>, f: Foreign, now: string)
    requires ShapedMap(m)
    requires forall x :: x in kept <==> x in m && !Removes(m[x])
    ensures forall x :: x in SimplifyMap(m, f, now) <==> x in kept + {TimeKey} + Parents(m, m.Keys, f).Keys
  {
    forall x ensures x in SimplifyMap(m, f, now) <==> x in kept + {TimeKey} + Parents(m, m.Keys, f).Keys {
      SimplifyMapHasKey(m, x, f, now);
    }
  }

  lemma SameKeys(r: FieldMap, keys: set<string>)
    requires forall x :: x in r <==> x in keys
    ensures r.Keys == keys
  {
  }

  /** The keys `Parents` writes when every key has been visited. */
  lemma ParentKeys(m: FieldMap, f: Foreign) returns (flat: set<string>)
    requires ParentsAgree(m)
    ensures flat == (if exists k :: k in m && m[k].BlockNodePtr? then {ParentHashKey} else {})
    ensures flat == Parents(m, m.Keys, f).Keys
  {
    flat := Parents(m, m.Keys, f).Keys;
  }

  /** Membership in the result, key by key. */
  lemma SimplifyMapHasKey(m: FieldMap, x: string, f: Foreign, now: string)
    requires ShapedMap(m)
    ensures x in SimplifyMap(m, f, now) <==>
      x == TimeKey || (x in m && !Removes(m[x])) || x in Parents(m, m.Keys, f)
  {
    SimplifyMapAt(m, x, f, now);
  }

  /** A second normalisation of a map that had a non-nil byte-named field
      is not possible: the field is now a string, and the name switch's
      `[]byte` or `*lib.PKID` type assertion would panic on it. */
  lemma SecondPassPanics(m: FieldMap, k: string, f: Foreign, now: string)
    requires ShapedMap(m) && k in m && !m[k].Null? && IsByteName(k)
    ensures !ShapedMap(SimplifyMap(m, f, now))
  {
    LiteralCases();
    SimplifyMapAt(m, k, f, now);
    var r := SimplifyMap(m, f, now);
    assert r[k].Str?;
  }
}

=== FILE: sync.dfy ===
/**
 One pass of the syncing service: every Badger record, in key order, is
 translated to a JSON document, turned into an upsert keyed by the record's
 key, and the upserts are sent to MongoDB in unordered bulk writes of at most
 1000 operations. A record whose translation panics ends the process; the
 bulk writes already sent stay sent.
 */
module SyncLoop {

  import opened Wrappers
  import opened Bytes
  import opened Values
  import opened Dispatcher
  import DispatcherFacts

  /** `bulkWriteChunkSize`. */
  const ChunkSize: nat := 1000

  /** A record as the iterator yields it: its key, and its value as copied
      out of the store (`None` when `ValueCopy` fails). */
  datatype Record = Record(key: seq<Byte>, read: Option<seq<Byte>>)

  /** An `UpdateOne` model with upsert set: filter `{_id: id}`, update
      `{$set: update}`. */
  datatype UpsertOp = UpsertOp(id: string, update: FieldMap)

  /* ---------------------------------------------------------------------
     One record
     --------------------------------------------------------------------- */

  /** The operation one record contributes: none (`NoDoc`) when the
      translation yields no JSON or the JSON does not unmarshal. */
  function RecordOp(r: Record, f: Foreign, now: string): (o: Outcome<UpsertOp>)
    ensures o.Panic? <==> Document(r.key, r.read, f, now).Panic?
    ensures o.Done? ==> o.value.id == GoString(r.key)
  {
    match BadgerItrToJSON(r.key, r.read, f, now)
    case Panic => Panic
    case NoDoc => NoDoc
    case Done(json) =>
      match f.unmarshal(json)
      case None => NoDoc
      case Some(doc) => Done(UpsertOp(GoString(r.key), doc))
  }

  /** Marshalling and unmarshalling round-trip: what `json.Unmarshal` reads
      back is the map `json.Marshal` wrote. */
  ghost predicate JsonRoundTrips(f: Foreign) {
    forall m: FieldMap :: f.marshal(m).Some? ==> f.unmarshal(f.marshal(m).value) == Some(m)
  }

  /** The `_id` of a record's upsert gives the record's key back, and so two
      records with different keys never update the same document. */
  lemma OpIdentifiesRecord(r: Record, s: Record, f: Foreign, now: string)
    requires RecordOp(r, f, now).Done? && RecordOp(s, f, now).Done?
    ensures IsByteString(RecordOp(r, f, now).value.id)
    ensures StringBytes(RecordOp(r, f, now).value.id) == r.key
    ensures RecordOp(r, f, now).value.id == RecordOp(s, f, now).value.id <==> r.key == s.key
  {
    GoStringRoundTrip(r.key);
    GoStringInjective(r.key, s.key);
  }

  /** When JSON round-trips, a record contributes an operation exactly when
      it has a document the marshaller accepts, and the operation sets
      exactly that document's fields. */
  lemma OpSetsDocument(r: Record, f: Foreign, now: string)
    requires JsonRoundTrips(f)
    ensures var o := RecordOp(r, f, now); var d := Document(r.key, r.read, f, now);
      && (o.Done? <==> d.Done? && f.marshal(d.value).Some?)
      && (o.Done? ==> o.value.update == d.value)
  {
    var d := Document(r.key, r.read, f, now);
    if d.Done? && f.marshal(d.value).Some? {
      assert f.unmarshal(f.marshal(d.value).value) == Some(d.value);
    }
  }

  /** Records of a table the switch does not know are skipped. */
  lemma UnknownTagNoOp(r: Record, f: Foreign, now: string)
    requires |r.key| > 0 && !KnownTag(r.key[0])
    ensures RecordOp(r, f, now).NoDoc?
  {
    DispatcherFacts.UnknownTagSkipped(r.key, r.read, f, now);
  }

  /* ---------------------------------------------------------------------
     The scan
     --------------------------------------------------------------------- */

  /** The translation of `Start`'s loop body, as a function of the record. */
  function Translation(f: Foreign, now: string): Record -> Outcome<UpsertOp> {
    r => RecordOp(r, f, now)
  }

  /** What each record, in iteration order, contributes. */
  function Outcomes(rs: seq<Record>, translate: Record -> Outcome<UpsertOp>): (os: seq<Outcome<UpsertOp>>)
    ensures |os| == |rs|
  {
    seq(|rs|, i requires 0 <= i < |rs| => translate(rs[i]))
  }

  /** The operations the records' outcomes yield, in iteration order, up to
      the first panic; and whether a panic ended the scan. */
  function Scan(os: seq<Outcome<UpsertOp>>): (s: (seq<UpsertOp>, bool))
    ensures |s.0| <= |os|
    decreases |os|
  {
    if |os| == 0 then ([], false)
    else
      match os[0]
      case Panic => ([], true)
      case NoDoc => Scan(os[1..])
      case Done(op) => var rest := Scan(os[1..]); ([op] + rest.0, rest.1)
  }

  /** The scan panics exactly when some record's translation panics. */
  lemma {:induction false} ScanPanicsExactly(os: seq<Outcome<UpsertOp>>)
    ensures Scan(os).1 <==> exists i :: 0 <= i < |os| && os[i].Panic?
  {
    if |os| > 0 {
      ScanPanicsExactly(os[1..]);
      if exists i :: 0 <= i < |os[1..]| && os[1..][i].Panic? {
        var i :| 0 <= i < |os[1..]| && os[1..][i].Panic?;
        assert os[i + 1].Panic?;
      }
      if exists i :: 0 <= i < |os| && os[i].Panic? {
        var i :| 0 <= i < |os| && os[i].Panic?;
        if i > 0 {
          assert os[1..][i - 1].Panic?;
        }
      }
    }
  }

  /** Every operation of the scan is the operation of one of the records. */
  lemma {:induction false} ScanOpsFromRecords(os: seq<Outcome<UpsertOp>>)
    ensures forall op :: op in Scan(os).0 ==> exists j :: 0 <= j < |os| && os[j] == Done(op)
  {
    if |os| > 0 {
      ScanOpsFromRecords(os[1..]);
      forall op | op in Scan(os).0
        ensures exists j :: 0 <= j < |os| && os[j] == Done(op)
      {
        if os[0] != Done(op) {
          var j :| 0 <= j < |os[1..]| && os[1..][j] == Done(op);
          assert os[j + 1] == Done(op);
        }
      }
    }
  }

  /** Extending the outcomes by one: the scan of the longer sequence is the
      scan of the shorter one, plus the new record's operation, unless the
      shorter scan already panicked. */
  lemma {:induction false} ScanSnoc(os: seq<Outcome<UpsertOp>>, o: Outcome<UpsertOp>)
    ensures var s := Scan(os); var s' := Scan(os + [o]);
      && (s.1 ==> s' == s)
      && (!s.1 ==> match o
                   case Panic => s' == (s.0, true)
                   case NoDoc => s' == s
                   case Done(op) => s' == (s.0 + [op], false))
  {
    if |os| == 0 {
      assert os + [o] == [o];
      if o.Done? {
        assert [o.value] + [] == [] + [o.value];
      }
    } else {
      assert (os + [o])[0] == os[0];
      assert (os + [o])[1..] == os[1..] + [o];
      ScanSnoc(os[1..], o);
      var rest := Scan(os[1..]);
      if os[0].Done? && !rest.1 && o.Done? {
        assert [os[0].value] + (rest.0 + [o.value]) == ([os[0].value] + rest.0) + [o.value];
      }
    }
  }

  /* ---------------------------------------------------------------------
     Bulk writes
     --------------------------------------------------------------------- */

  /** The concatenation of a sequence of batches. */
  function Flatten(bs: seq<seq<UpsertOp>>): seq<UpsertOp> {
    if |bs| == 0 then [] else bs[0] + Flatten(bs[1..])
  }

  /** The operations cut into consecutive batches of `ChunkSize`, the last
      one possibly shorter. */
  function Chunks(ops: seq<UpsertOp>): (bs: seq<seq<UpsertOp>>)
    ensures forall i :: 0 <= i < |bs| ==> 0 < |bs[i]| <= ChunkSize
    ensures forall i :: 0 <= i < |bs| - 1 ==> |bs[i]| == ChunkSize
    ensures Flatten(bs) == ops
    decreases |ops|
  {
    if |ops| == 0 then []
    else if |ops| <= ChunkSize then [ops]
    else [ops[..ChunkSize]] + Chunks(ops[ChunkSize..])
  }

  /** The number of bulk writes is the number of operations divided by
      `ChunkSize`, rounded up. */
  lemma {:induction false} ChunkCount(ops: seq<UpsertOp>)
    ensures |Chunks(ops)| == (|ops| + ChunkSize - 1) / ChunkSize
    decreases |ops|
  {
    if |ops| > ChunkSize {
      ChunkCount(ops[ChunkSize..]);
    }
  }

  /** Cutting a prefix of whole batches first changes nothing. */
  lemma {:induction false} ChunksAppend(a: seq<UpsertOp>, b: seq<UpsertOp>)
    requires |a| % ChunkSize == 0
    ensures Chunks(a + b) == Chunks(a) + Chunks(b)
    decreases |a|
  {
    if |a| == 0 {
      assert a + b == b;
    } else {
      assert (a + b)[..ChunkSize] == a[..ChunkSize];
      assert (a + b)[ChunkSize..] == a[ChunkSize..] + b;
      ChunksAppend(a[ChunkSize..], b);
    }
  }

  /** What one pass writes to MongoDB: every batch of the scan's operations
      when it completes; only the full batches when a panic cuts it short
      (the partial batch collected so far is lost with the process). */
  function Written(os: seq<Outcome<UpsertOp>>): (bs: seq<seq<UpsertOp>>)
    ensures var s := Scan(os);
      && (!s.1 ==> Flatten(bs) == s.0)
      && (s.1 ==> Flatten(bs) <= s.0 && |s.0| - |Flatten(bs)| < ChunkSize)
      && forall i :: 0 <= i < |bs| ==> 0 < |bs[i]| <= ChunkSize
  {
    var (ops, panicked) := Scan(os);
    if panicked then Chunks(ops[..|ops| - |ops| % ChunkSize]) else Chunks(ops)
  }

  /** The state of the iterator loop: `written` holds the batches flushed
      so far, all full, and `ops` the operations buffered since. */
  ghost predicate Buffered(all: seq<UpsertOp>, written: seq<seq<UpsertOp>>, ops: seq<UpsertOp>) {
    && |ops| <= ChunkSize
    && ChunkSize * |written| + |ops| == |all|
    && written == Chunks(all[..ChunkSize * |written|])
    && ops == all[ChunkSize * |written|..]
  }

  lemma WholeBatches(w: nat, b: nat)
    requires b < ChunkSize
    ensures (ChunkSize * w + b) % ChunkSize == b
    ensures (ChunkSize * w) % ChunkSize == 0
  {
  }

  lemma BufferedFlush(all: seq<UpsertOp>, written: seq<seq<UpsertOp>>, ops: seq<UpsertOp>)
    requires Buffered(all, written, ops) && |ops| == ChunkSize
    ensures Buffered(all, written + [ops], [])
  {
    WholeBatches(|written|, 0);
    var k := ChunkSize * |written|;
    assert all == all[..k] + ops;
    ChunksAppend(all[..k], ops);
    assert all[..ChunkSize * |written + [ops]|] == all;
  }

  lemma BufferedAppend(all: seq<UpsertOp>, written: seq<seq<UpsertOp>>, ops: seq<UpsertOp>, op: UpsertOp)
    requires Buffered(all, written, ops) && |ops| < ChunkSize
    ensures Buffered(all + [op], written, ops + [op])
  {
    var k := ChunkSize * |written|;
    assert (all + [op])[..k] == all[..k];
    assert (all + [op])[k..] == ops + [op];
  }

  lemma BufferedComplete(all: seq<UpsertOp>, written: seq<seq<UpsertOp>>, ops: seq<UpsertOp>)
    requires Buffered(all, written, ops)
    ensures Chunks(all) == written + (if |ops| == 0 then [] else [ops])
  {
    WholeBatches(|written|, 0);
    var k := ChunkSize * |written|;
    assert all == all[..k] + ops;
    ChunksAppend(all[..k], ops);
  }

  lemma BufferedCut(all: seq<UpsertOp>, written: seq<seq<UpsertOp>>, ops: seq<UpsertOp>)
    requires Buffered(all, written, ops) && |ops| < ChunkSize
    ensures written == Chunks(all[..|all| - |all| % ChunkSize])
  {
    WholeBatches(|written|, |ops|);
  }

  /** The loop state after one more record that contributes nothing. */
  lemma SkipStep(os: seq<Outcome<UpsertOp>>, i: nat, written: seq<seq<UpsertOp>>, ops: seq<UpsertOp>)
    requires i < |os| && os[i].NoDoc?
    requires !Scan(os[..i]).1 && Buffered(Scan(os[..i]).0, written, ops)
    ensures !Scan(os[..i + 1]).1 && Buffered(Scan(os[..i + 1]).0, written, ops)
  {
    TakeSnoc(os, i);
    ScanSnoc(os[..i], os[i]);
  }

  /** The loop state after one more record that contributes an operation. */
  lemma AppendStep(os: seq<Outcome<UpsertOp>>, i: nat, written: seq<seq<UpsertOp>>, ops: seq<UpsertOp>)
    requires i < |os| && os[i].Done?
    requires !Scan(os[..i]).1 && Buffered(Scan(os[..i]).0, written, ops) && |ops| < ChunkSize
    ensures !Scan(os[..i + 1]).1 && Buffered(Scan(os[..i + 1]).0, written, ops + [os[i].value])
  {
    TakeSnoc(os, i);
    ScanSnoc(os[..i], os[i]);
    BufferedAppend(Scan(os[..i]).0, written, ops, os[i].value);
  }

  /** The loop state when a record's translation panics: the whole scan
      panics and the batches written so far are what a panicking pass
      writes. */
  lemma PanicStep(os: seq<Outcome<UpsertOp>>, i: nat, written: seq<seq<UpsertOp>>, ops: seq<UpsertOp>)
    requires i < |os| && os[i].Panic?
    requires !Scan(os[..i]).1 && Buffered(Scan(os[..i]).0, written, ops) && |ops| < ChunkSize
    ensures Scan(os).1 && written == Written(os)
  {
    TakeSnoc(os, i);
    ScanSnoc(os[..i], os[i]);
    BufferedCut(Scan(os[..i]).0, written, ops);
    TakeDrop(os, i + 1);
    ScanPrefixPanics(os[..i + 1], os[i + 1..]);
  }

  /** The loop state at the end of the records: flushing what is buffered
      completes what a finished pass writes. */
  lemma CompleteStep(os: seq<Outcome<UpsertOp>>, written: seq<seq<UpsertOp>>, ops: seq<UpsertOp>)
    requires !Scan(os).1 && Buffered(Scan(os).0, written, ops)
    ensures Written(os) == written + (if |ops| == 0 then [] else [ops])
  {
    BufferedComplete(Scan(os).0, written, ops);
  }

  /** The bulk write at the top of the loop body: a full buffer is sent and
      emptied before the next record is looked at. */
  method FlushIfFull(ghost all: seq<UpsertOp>, written: seq<seq<UpsertOp>>, ops: seq<UpsertOp>, totalIterations: nat)
    returns (written': seq<seq<UpsertOp>>, ops': seq<UpsertOp>, totalIterations': nat)
    requires Buffered(all, written, ops) && totalIterations == |ops|
    ensures Buffered(all, written', ops') && totalIterations' == |ops'| < ChunkSize
    ensures written' + Chunks(ops') == written + Chunks(ops)
  {
    if totalIterations % ChunkSize == 0 && totalIterations != 0 {
      BufferedFlush(all, written, ops);
      written', ops', totalIterations' := written + [ops], [], 0;
    } else {
      written', ops', totalIterations' := written, ops, totalIterations;
    }
  }

  /** The iterator loop of `Start`, for one pass over the store, with the
      per-record translation as a parameter: operations are buffered and
      flushed when the buffer holds `ChunkSize` of them and another record
      comes; what is buffered at the end is flushed too. */
  method BulkLoop(rs: seq<Record>, translate: Record -> Outcome<UpsertOp>)
    returns (written: seq<seq<UpsertOp>>, panicked: bool)
    ensures panicked == Scan(Outcomes(rs, translate)).1
    ensures written == Written(Outcomes(rs, translate))
  {
    ghost var os := Outcomes(rs, translate);
    written := [];
    var ops: seq<UpsertOp> := [];
    var totalIterations: nat := 0;
    var i := 0;
    while i < |rs|
      invariant 0 <= i <= |rs|
      invariant !Scan(os[..i]).1
      invariant totalIterations == |ops|
      invariant Buffered(Scan(os[..i]).0, written, ops)
    {
      written, ops, totalIterations := FlushIfFull(Scan(os[..i]).0, written, ops, totalIterations);
      var o := translate(rs[i]);
      assert o == os[i];
      if o.Panic? {
        PanicStep(os, i, written, ops);
        panicked := true;
        return;
      }
      if o.Done? {
        AppendStep(os, i, written, ops);
        ops := ops + [o.value];
        totalIterations := totalIterations + 1;
      } else {
        SkipStep(os, i, written, ops);
      }
      i := i + 1;
    }
    TakeDrop(os, i);
    CompleteStep(os, written, ops);
    assert ops[0..totalIterations] == ops;
    if totalIterations != 0 {
      written := written + [ops[0..totalIterations]];
    }
    panicked := false;
  }

  /** One pass of `Start` over the store's records: the pass panics exactly
      when some record's translation panics, and writes what `Written`
      says. */
  method SyncPass(rs: seq<Record>, f: Foreign, now: string)
    returns (written: seq<seq<UpsertOp>>, panicked: bool)
    ensures panicked <==> exists i :: 0 <= i < |rs| && Document(rs[i].key, rs[i].read, f, now).Panic?
    ensures written == Written(Outcomes(rs, Translation(f, now)))
  {
    written, panicked := BulkLoop(rs, Translation(f, now));
    ghost var os := Outcomes(rs, Translation(f, now));
    ScanPanicsExactly(os);
    if panicked {
      ghost var i :| 0 <= i < |os| && os[i].Panic?;
      assert RecordOp(rs[i], f, now).Panic?;
    } else {
      forall i | 0 <= i < |rs|
        ensures !Document(rs[i].key, rs[i].read, f, now).Panic?
      {
        assert !os[i].Panic?;
      }
    }
  }

  /** Every operation a pass writes upserts the document of one of the
      store's records, under that record's key. */
  lemma WrittenOpsFromRecords(rs: seq<Record>, f: Foreign, now: string)
    ensures forall op :: op in Flatten(Written(Outcomes(rs, Translation(f, now)))) ==>
      exists j :: 0 <= j < |rs| && RecordOp(rs[j], f, now) == Done(op) && op.id == GoString(rs[j].key)
  {
    var os := Outcomes(rs, Translation(f, now));
    ScanOpsFromRecords(os);
    forall op | op in Flatten(Written(os))
      ensures exists j :: 0 <= j < |rs| && RecordOp(rs[j], f, now) == Done(op) && op.id == GoString(rs[j].key)
    {
      assert op in Scan(os).0;
      var j :| 0 <= j < |os| && os[j] == Done(op);
      assert RecordOp(rs[j], f, now) == Done(op);
    }
  }

  lemma TakeSnoc<T>(s: seq<T>, i: nat)
    requires i < |s|
    ensures s[..i + 1] == s[..i] + [s[i]]
  {
  }

  lemma TakeDrop<T>(s: seq<T>, i: nat)
    requires i <= |s|
    ensures s[..i] + s[i..] == s
    ensures i == |s| ==> s[..i] == s
  {
  }

  /** Once a prefix of the outcomes panics, so does the whole scan, with the
      same operations. */
  lemma {:induction false} ScanPrefixPanics(os: seq<Outcome<UpsertOp>>, more: seq<Outcome<UpsertOp>>)
    requires Scan(os).1
    ensures Scan(os + more) == Scan(os)
    decreases |os|
  {
    assert |os| > 0;
    assert (os + more)[0] == os[0];
    assert (os + more)[1..] == os[1..] + more;
    if !os[0].Panic? {
      ScanPrefixPanics(os[1..], more);
    }
  }
}

=== FILE: two_passes.dfy ===
/**
 Two passes over an unchanged store. Between passes only the timestamp
 changes, and it reaches a document only through its `Time` stamps: the
 documents of the two passes have the same keys and agree everywhere except
 in those stamps, at any depth, and the same records panic.
 */
module TwoPasses {

  import opened Wrappers
  import opened Bytes
  import opened Values
  import opened Normalizer
  import NormalizerFacts
  import opened Dispatcher
  import SyncLoop

  /** Two values under the name `k` that are equal, or are both `Time`
      stamps, or are nested maps that agree apart from their stamps. */
  predicate SameValueBesidesTime(k: string, x: Value, y: Value)
    decreases x, 1
  {
    || x == y
    || (k == TimeKey && x.Str? && y.Str?)
    || (x.Nested? && y.Nested? && SameBesidesTime(x.fields, y.fields))
  }

  /** Two field maps with the same keys whose entries agree apart from
      `Time` stamps. */
  predicate SameBesidesTime(a: FieldMap, b: FieldMap)
    decreases Nested(a), 0
  {
    a.Keys == b.Keys && forall k | k in a :: SameValueBesidesTime(k, a[k], b[k])
  }

  /* ---------------------------------------------------------------------
     The relation
     --------------------------------------------------------------------- */

  lemma SameReflexive(a: FieldMap)
    ensures SameBesidesTime(a, a)
  {
    assert forall k | k in a :: SameValueBesidesTime(k, a[k], a[k]);
  }

  lemma {:induction false} SameSymmetric(a: FieldMap, b: FieldMap)
    requires SameBesidesTime(a, b)
    ensures SameBesidesTime(b, a)
    decreases Nested(a)
  {
    forall k | k in b ensures SameValueBesidesTime(k, b[k], a[k]) {
      assert SameValueBesidesTime(k, a[k], b[k]);
      if a[k] != b[k] && a[k].Nested? && b[k].Nested? && SameBesidesTime(a[k].fields, b[k].fields) {
        SameSymmetric(a[k].fields, b[k].fields);
      }
    }
  }

  /** The same `Time` stamp in two places. */
  lemma Restamped(m: FieldMap, n1: string, n2: string)
    ensures SameBesidesTime(m[TimeKey := Str(n1)], m[TimeKey := Str(n2)])
  {
    var a := m[TimeKey := Str(n1)];
    var b := m[TimeKey := Str(n2)];
    assert forall k | k in a :: SameValueBesidesTime(k, a[k], b[k]);
  }

  /** Entries that agree apart from stamps are never block-node references
      or removed entries unless they are equal. */
  lemma SameEntry(k: string, x: Value, y: Value)
    requires SameValueBesidesTime(k, x, y)
    ensures Removes(x) <==> Removes(y)
    ensures x.BlockNodePtr? ==> x == y
    ensures x.Null? <==> y.Null?
  {
  }

  /* ---------------------------------------------------------------------
     The normaliser
     --------------------------------------------------------------------- */

  /** Agreement apart from stamps keeps the shape the normaliser's type
      assertions rely on. */
  lemma {:induction false} ShapeBesidesTime(a: FieldMap, b: FieldMap)
    requires SameBesidesTime(a, b) && ShapedMap(a)
    ensures ShapedMap(b)
    decreases Nested(a)
  {
    NormalizerFacts.LiteralCases();
    forall k | k in b
      ensures b[k].Null? || (NameOk(k, b[k]) && (b[k].Nested? ==> ShapedMap(b[k].fields)))
    {
      assert SameValueBesidesTime(k, a[k], b[k]);
      if a[k] != b[k] && a[k].Nested? && b[k].Nested? {
        ShapeBesidesTime(a[k].fields, b[k].fields);
        if KeyCaseOf(k) == Header {
          forall h | h in HeaderHashNames ensures h in b[k].fields && BecomesString(b[k].fields[h]) {
            NormalizerFacts.HeaderHashCase(h);
            assert SameValueBesidesTime(h, a[k].fields[h], b[k].fields[h]);
          }
        }
      }
    }
    forall j, k | j in b && k in b && b[j].BlockNodePtr? && b[k].BlockNodePtr?
      ensures b[j].node == b[k].node
    {
      SameEntry(j, a[j], b[j]);
      SameEntry(k, a[k], b[k]);
      assert SameValueBesidesTime(j, a[j], b[j]) && SameValueBesidesTime(k, a[k], b[k]);
    }
  }

  /** The normaliser panics on one of two such maps iff it panics on the other. */
  lemma ShapedBesidesTime(a: FieldMap, b: FieldMap)
    requires SameBesidesTime(a, b)
    ensures ShapedMap(a) <==> ShapedMap(b)
  {
    SameSymmetric(a, b);
    if ShapedMap(a) {
      ShapeBesidesTime(a, b);
    }
    if ShapedMap(b) {
      ShapeBesidesTime(b, a);
    }
  }

  /** The `ParentHash` two such maps leave behind is the same. */
  lemma ParentsBesidesTime(a: FieldMap, b: FieldMap, f: Foreign)
    requires SameBesidesTime(a, b) && ParentsAgree(a) && ParentsAgree(b)
    ensures Parents(a, a.Keys, f) == Parents(b, b.Keys, f)
  {
    forall j | j in a ensures (a[j].BlockNodePtr? <==> b[j].BlockNodePtr?) && (a[j].BlockNodePtr? ==> a[j] == b[j]) {
      SameEntry(j, a[j], b[j]);
      SameSymmetric(a, b);
      SameEntry(j, b[j], a[j]);
    }
    if exists j :: j in a && a[j].BlockNodePtr? {
      var j :| j in a && a[j].BlockNodePtr?;
      assert Parents(a, a.Keys, f)[ParentHashKey] == ParentValue(a[j].node, f);
      assert Parents(b, b.Keys, f)[ParentHashKey] == ParentValue(b[j].node, f);
    }
  }

  /** Outside nested maps the timestamp plays no part in processing an entry. */
  lemma ProcessedFlat(k: string, x: Value, f: Foreign, n1: string, n2: string)
    requires !x.Nested? && ShapedValue(k, x) && !Removes(x)
    ensures Processed(k, x, f, n1) == Processed(k, x, f, n2)
  {
    assert TypeRewrite(x, f, n1) == TypeRewrite(x, f, n2);
  }

  /** A stamp stays a string. */
  lemma ProcessedStamp(x: Value, f: Foreign, now: string)
    requires x.Str?
    ensures ShapedValue(TimeKey, x) && Processed(TimeKey, x, f, now) == x
  {
    NormalizerFacts.LiteralCases();
    assert TypeRewrite(x, f, now) == Keep(x);
  }

  /** A nested map under any name is normalised, and nothing more. */
  lemma ProcessedNestedMap(k: string, x: Value, f: Foreign, now: string)
    requires x.Nested? && ShapedValue(k, x)
    ensures Processed(k, x, f, now) == Nested(SimplifyMap(x.fields, f, now))
  {
    NormalizerFacts.LiteralCases();
    if KeyCaseOf(k) == Header {
      assert k == HeaderKey && NameOk(k, x);
      NormalizerFacts.HeaderProcessed(x.fields, f, now);
    } else {
      assert TypeRewrite(x, f, now) == Keep(Nested(SimplifyMap(x.fields, f, now)));
    }
  }

  /** A nested map processed in two passes. */
  lemma {:induction false} ProcessedNested(k: string, x: Value, y: Value, f: Foreign, n1: string, n2: string)
    requires x.Nested? && y.Nested? && SameBesidesTime(x.fields, y.fields)
    requires ShapedValue(k, x) && ShapedValue(k, y)
    ensures SameValueBesidesTime(k, Processed(k, x, f, n1), Processed(k, y, f, n2))
    decreases x, 2
  {
    SimplifyBesidesTime(x.fields, y.fields, f, n1, n2);
    ProcessedNestedMap(k, x, f, n1);
    ProcessedNestedMap(k, y, f, n2);
  }

  /** One entry, processed in two passes. */
  lemma {:induction false} ProcessedBesidesTime(k: string, x: Value, y: Value, f: Foreign, n1: string, n2: string)
    requires SameValueBesidesTime(k, x, y)
    requires ShapedValue(k, x) && ShapedValue(k, y) && !Removes(x) && !Removes(y)
    ensures SameValueBesidesTime(k, Processed(k, x, f, n1), Processed(k, y, f, n2))
    decreases x, 3
  {
    if x.Nested? && y.Nested? {
      if x == y {
        SameReflexive(x.fields);
      }
      ProcessedNested(k, x, y, f, n1, n2);
    } else if x == y {
      ProcessedFlat(k, x, f, n1, n2);
    } else {
      ProcessedStamp(x, f, n1);
      ProcessedStamp(y, f, n2);
    }
  }

  /** One key of two such maps, normalised in two passes. */
  lemma {:induction false} SimplifiedEntry(a: FieldMap, b: FieldMap, x: string, f: Foreign, n1: string, n2: string)
    requires SameBesidesTime(a, b) && ShapedMap(a) && ShapedMap(b)
    requires Parents(a, a.Keys, f) == Parents(b, b.Keys, f)
    ensures var ra := SimplifyMap(a, f, n1); var rb := SimplifyMap(b, f, n2);
      && (x in ra <==> x in rb)
      && (x in ra ==> SameValueBesidesTime(x, ra[x], rb[x]))
    decreases Nested(a), 0
  {
    NormalizerFacts.SimplifyMapAt(a, x, f, n1);
    NormalizerFacts.SimplifyMapAt(b, x, f, n2);
    if x in a {
      SameEntry(x, a[x], b[x]);
      if x != TimeKey && x !in Parents(a, a.Keys, f) && !Removes(a[x]) {
        ProcessedBesidesTime(x, a[x], b[x], f, n1, n2);
      }
    }
  }

  /** Normalising two such maps, with any two timestamps, gives two such maps. */
  lemma {:induction false} SimplifyBesidesTime(a: FieldMap, b: FieldMap, f: Foreign, n1: string, n2: string)
    requires SameBesidesTime(a, b) && ShapedMap(a)
    ensures ShapedMap(b)
    ensures SameBesidesTime(SimplifyMap(a, f, n1), SimplifyMap(b, f, n2))
    decreases Nested(a), 1
  {
    ShapeBesidesTime(a, b);
    ParentsBesidesTime(a, b, f);
    var ra := SimplifyMap(a, f, n1);
    var rb := SimplifyMap(b, f, n2);
    forall x ensures (x in ra <==> x in rb) && (x in ra ==> SameValueBesidesTime(x, ra[x], rb[x])) {
      SimplifiedEntry(a, b, x, f, n1, n2);
    }
    assert ra.Keys == rb.Keys;
  }

  /* ---------------------------------------------------------------------
     Normalising a normalised map
     --------------------------------------------------------------------- */

  /** A flat entry the first pass left in a shape the second pass accepts is
      left alone by the second pass: it is a string, null, or a value neither
      switch rewrites, under a name outside the byte-named cases. */
  lemma FlatReprocessed(k: string, orig: Value, f: Foreign, n1: string, n2: string)
    requires !orig.Nested? && ShapedValue(k, orig) && !Removes(orig)
    requires ShapedValue(k, Processed(k, orig, f, n1))
    ensures var v := Processed(k, orig, f, n1);
      !Removes(v) && Processed(k, v, f, n2) == v
  {
    var v := Processed(k, orig, f, n1);
    if !orig.Null? {
      var cur := TypeRewrite(orig, f, n1).v;
      assert !cur.Nested?;
      assert v == NameRewrite(k, cur, orig, f);
      if !v.Null? {
        assert KeyCaseOf(k) == Txns || KeyCaseOf(k) == Plain;
        assert v == cur;
        assert TypeRewrite(v, f, n2) == Keep(v);
      }
    }
  }

  /** One entry, normalised twice. */
  lemma {:induction false} EntryTwice(k: string, orig: Value, f: Foreign, n1: string, n2: string)
    requires ShapedValue(k, orig) && !Removes(orig)
    requires ShapedValue(k, Processed(k, orig, f, n1))
    ensures var v := Processed(k, orig, f, n1);
      !Removes(v) && SameValueBesidesTime(k, Processed(k, v, f, n2), v)
    decreases orig, 2
  {
    if orig.Nested? {
      var v := Processed(k, orig, f, n1);
      ProcessedNestedMap(k, orig, f, n1);
      assert v.Nested? && ShapedMap(v.fields);
      SimplifyTwice(orig.fields, f, n1, n2);
      ProcessedNestedMap(k, v, f, n2);
    } else {
      FlatReprocessed(k, orig, f, n1, n2);
      SameReflexive(map[]);
    }
  }

  /** A string or null under a name outside the key switch is kept as is. */
  lemma ProcessedPlain(k: string, v: Value, f: Foreign, now: string)
    requires KeyCaseOf(k) == Plain && (v.Str? || v.Null?)
    ensures ShapedValue(k, v) && Processed(k, v, f, now) == v
  {
    if v.Str? {
      assert TypeRewrite(v, f, now) == Keep(v);
    }
  }

  /** One key of a normalised map, processed again. */
  lemma {:induction false} TwiceAt(m: FieldMap, x: string, f: Foreign, n1: string, n2: string)
    requires ShapedMap(m) && ShapedMap(SimplifyMap(m, f, n1))
    ensures var r := SimplifyMap(m, f, n1);
      x in r ==> ShapedValue(x, r[x]) && !Removes(r[x]) && SameValueBesidesTime(x, Processed(x, r[x], f, n2), r[x])
    decreases Nested(m), 0
  {
    var r := SimplifyMap(m, f, n1);
    NormalizerFacts.LiteralCases();
    NormalizerFacts.SimplifyMapAt(m, x, f, n1);
    if x in r {
      assert ShapedValue(x, r[x]);
      if x == TimeKey || x in Parents(m, m.Keys, f) {
        ProcessedPlain(x, r[x], f, n2);
        SameReflexive(map[]);
      } else {
        EntryTwice(x, m[x], f, n1, n2);
      }
    }
  }

  /** A normalised map that the normaliser still accepts normalises again to
      itself, apart from the `Time` stamps. */
  lemma {:induction false} SimplifyTwice(m: FieldMap, f: Foreign, n1: string, n2: string)
    requires ShapedMap(m) && ShapedMap(SimplifyMap(m, f, n1))
    ensures SameBesidesTime(SimplifyMap(SimplifyMap(m, f, n1), f, n2), SimplifyMap(m, f, n1))
    decreases Nested(m), 1
  {
    var r := SimplifyMap(m, f, n1);
    var s := SimplifyMap(r, f, n2);
    forall x | x in r ensures !Removes(r[x]) {
      TwiceAt(m, x, f, n1, n2);
    }
    assert Parents(r, r.Keys, f) == map[];
    forall x ensures (x in s <==> x in r) && (x in s ==> SameValueBesidesTime(x, s[x], r[x])) {
      NormalizerFacts.SimplifyMapAt(r, x, f, n2);
      TwiceAt(m, x, f, n1, n2);
      if x == TimeKey {
        assert s[x].Str? && r[x].Str?;
      }
    }
    assert s.Keys == r.Keys;
  }

  /* ---------------------------------------------------------------------
     The dispatcher
     --------------------------------------------------------------------- */

  lemma LabelBesidesTime(a: FieldMap, b: FieldMap, t: Byte)
    requires SameBesidesTime(a, b)
    ensures SameBesidesTime(Label(a, t), Label(b, t))
  {
    var la := Label(a, t);
    var lb := Label(b, t);
    assert forall k | k in la :: k in a || la[k] == lb[k];
    assert forall k | k in la :: SameValueBesidesTime(k, la[k], lb[k]);
  }

  /** Both orders of normalising and labelling, on two such maps. */
  lemma BuiltBesidesTime(a: FieldMap, b: FieldMap, t: Byte, f: Foreign, n1: string, n2: string)
    requires SameBesidesTime(a, b)
    ensures var d1 := SimplifiedThenLabelled(a, t, f, n1); var d2 := SimplifiedThenLabelled(b, t, f, n2);
      d1.Done? == d2.Done? && (d1.Done? ==> SameBesidesTime(d1.value, d2.value))
    ensures var d1 := LabelledThenSimplified(a, t, f, n1); var d2 := LabelledThenSimplified(b, t, f, n2);
      d1.Done? == d2.Done? && (d1.Done? ==> SameBesidesTime(d1.value, d2.value))
  {
    ShapedBesidesTime(a, b);
    if ShapedMap(a) {
      SimplifyBesidesTime(a, b, f, n1, n2);
      LabelBesidesTime(SimplifyMap(a, f, n1), SimplifyMap(b, f, n2), t);
    }
    LabelBesidesTime(a, b, t);
    ShapedBesidesTime(Label(a, t), Label(b, t));
    if ShapedMap(Label(a, t)) {
      SimplifyBesidesTime(Label(a, t), Label(b, t), f, n1, n2);
    }
  }

  /** The same outcome, and documents that agree apart from stamps. */
  ghost predicate SameOutcome(d1: Outcome<FieldMap>, d2: Outcome<FieldMap>) {
    && (d1.Done? <==> d2.Done?)
    && (d1.NoDoc? <==> d2.NoDoc?)
    && (d1.Panic? <==> d2.Panic?)
    && (d1.Done? && d2.Done? ==> d1.value.Keys == d2.value.Keys && SameBesidesTime(d1.value, d2.value))
  }

  lemma DecodedBesidesTime(key: seq<Byte>, val: seq<Byte>, f: Foreign, n1: string, n2: string)
    requires |key| > 0 && DecodedTag(key[0])
    ensures SameOutcome(DecodedDocument(key, val, f, n1), DecodedDocument(key, val, f, n2))
  {
    var t := key[0];
    match DecoderResult(t, val, f)
    case None =>
    case Some(m) =>
      if t == 0 {
        var m' := m["BlockHash" := BlockHash(CopyHash(key[1..]))];
        SameReflexive(m');
        BuiltBesidesTime(m', m', t, f, n1, n2);
      } else if t == 36 {
        if !(PKIDKey !in m || !m[PKIDKey].PKIDPtr? || m[PKIDKey].pkid.None?) {
          var m' := m[PKIDKey := ByteSlice(m[PKIDKey].pkid.value)];
          SameReflexive(m');
          BuiltBesidesTime(m', m', t, f, n1, n2);
        }
      } else if t == 40 {
        SameReflexive(Label(m, t));
      } else {
        SameReflexive(m);
        BuiltBesidesTime(m, m, t, f, n1, n2);
      }
  }

  lemma ValueBesidesTime(t: Byte, val: seq<Byte>, f: Foreign, n1: string, n2: string)
    requires ValueTag(t)
    ensures SameOutcome(ValueDocument(t, val, f, n1), ValueDocument(t, val, f, n2))
  {
    var fields: FieldMap :=
      if t == 3 || t == 4 then map[HashKey := Str(f.hashString(ValueCopyHash(val)))]
      else if t == 9 || t == 13 || t == 16 then map[]
      else if CounterTag(t) && |val| >= 8 then map[CounterName(t) := Num(DecodeUint64(val))]
      else map[];
    Restamped(fields, n1, n2);
    LabelBesidesTime(fields[TimeKey := Str(n1)], fields[TimeKey := Str(n2)], t);
  }

  /** The key layouts differ between passes at most in their stamp. */
  lemma KeyFieldsBesidesTime(key: seq<Byte>, val: seq<Byte>, n1: string, n2: string)
    requires |key| > 0 && KeyTag(key[0]) && |key| >= MinKeyLength(key[0])
    ensures SameBesidesTime(KeyFields(key, val, n1), KeyFields(key, val, n2))
  {
    var t := key[0];
    if t == 11 {
      Restamped(map["TxID" := BlockHash(CopyHash(key[1..]))], n1, n2);
    } else if t == 28 {
      Restamped(map["FollowerPKID" := ByteSlice(key[1..34]), "FollowedPKID" := ByteSlice(key[34..])], n1, n2);
    } else {
      assert KeyFields(key, val, n1) == KeyFields(key, val, n2);
      SameReflexive(KeyFields(key, val, n1));
    }
  }

  lemma KeyBesidesTime(key: seq<Byte>, val: seq<Byte>, f: Foreign, n1: string, n2: string)
    requires |key| > 0 && KeyTag(key[0])
    ensures SameOutcome(KeyDocument(key, val, f, n1), KeyDocument(key, val, f, n2))
  {
    var t := key[0];
    if |key| >= MinKeyLength(t) {
      KeyFieldsBesidesTime(key, val, n1, n2);
      BuiltBesidesTime(KeyFields(key, val, n1), KeyFields(key, val, n2), t, f, n1, n2);
    }
  }

  /** Two passes over the same record: the same outcome, and documents with
      the same keys that agree everywhere except in their `Time` stamps. */
  lemma DocumentBesidesTime(key: seq<Byte>, read: Option<seq<Byte>>, f: Foreign, n1: string, n2: string)
    ensures SameOutcome(Document(key, read, f, n1), Document(key, read, f, n2))
  {
    if |key| > 0 && read.Some? {
      var t := key[0];
      if DecodedTag(t) {
        DecodedBesidesTime(key, read.value, f, n1, n2);
      } else if ValueTag(t) {
        ValueBesidesTime(t, read.value, f, n1, n2);
      } else if KeyTag(t) {
        KeyBesidesTime(key, read.value, f, n1, n2);
      }
    }
  }

  /* ---------------------------------------------------------------------
     The pass
     --------------------------------------------------------------------- */

  /** Whether a pass over a store panics does not depend on the timestamp. */
  lemma PassesPanicAlike(rs: seq<SyncLoop.Record>, f: Foreign, n1: string, n2: string)
    ensures SyncLoop.Scan(SyncLoop.Outcomes(rs, SyncLoop.Translation(f, n1))).1
        <==> SyncLoop.Scan(SyncLoop.Outcomes(rs, SyncLoop.Translation(f, n2))).1
  {
    var os1 := SyncLoop.Outcomes(rs, SyncLoop.Translation(f, n1));
    var os2 := SyncLoop.Outcomes(rs, SyncLoop.Translation(f, n2));
    SyncLoop.ScanPanicsExactly(os1);
    SyncLoop.ScanPanicsExactly(os2);
    forall i | 0 <= i < |rs| ensures os1[i].Panic? <==> os2[i].Panic? {
      DocumentBesidesTime(rs[i].key, rs[i].read, f, n1, n2);
    }
  }
}

=== FILE: values.dfy ===
/**
 The dynamic values that populate a decoded record's field map, and the
 foreign functions the translation engine calls but does not define.
 */
module Values {

  import opened Wrappers
  import opened Bytes

  /** The Go dynamic types that can sit behind an `interface{}` in a field
      map, as far as the normaliser distinguishes them. */
  datatype Value =
    | Null                                  // untyped nil
    | Str(s: string)
    | Num(n: int)                           // any Go integer (uint32, uint64, ...)
    | Bool(b: bool)
    | ByteSlice(bytes: seq<Byte>)           // []byte
    | Nested(fields: map<string, Value>)    // map[string]interface{}
    | List(items: seq<Value>)               // []interface{}
    | UtxoType(code: nat)                   // lib.UtxoType
    | BlockHash(hash: seq<Byte>)            // lib.BlockHash
    | BlockHashPtr(ptr: Option<seq<Byte>>)  // *lib.BlockHash (None is nil)
    | BlockNodePtr(node: Option<seq<Byte>>) // *lib.BlockNode, only its Hash is read (None is nil)
    | BigIntPtr(big: Option<int>)           // *big.Int (None is nil)
    | StakeEntry                            // lib.StakeEntry
    | PKIDPtr(pkid: Option<seq<Byte>>)      // *lib.PKID (None is nil)

  /** A `map[string]interface{}`. */
  type FieldMap = map<string, Value>

  /** The record types the dispatcher gob-decodes. */
  datatype GobType =
    | UtxoEntry | UtxoKey | MessageEntry | TransactionMetadata | PostEntry
    | ProfileEntry | BalanceEntry | PKIDEntry | RecloutEntry | GlobalParamsEntry

  /** Library code the engine calls but that is not modelled: every property
      below holds for every choice of these functions. Decoders include the
      `structs.Map` conversion of the decoded struct; `None` is a returned error. */
  datatype Foreign = Foreign(
    pkToString: seq<Byte> -> string,                  // lib.PkToStringBoth
    hashString: seq<Byte> -> string,                  // (*lib.BlockHash).String
    utxoTypeString: nat -> string,                    // lib.UtxoType.String
    bigIntString: int -> string,                      // (*big.Int).String
    decodeBlock: seq<Byte> -> Option<FieldMap>,       // MsgBitCloutBlock.FromBytes
    decodeBlockNode: seq<Byte> -> Option<FieldMap>,   // lib.DeserializeBlockNode
    gobDecode: (GobType, seq<Byte>) -> Option<FieldMap>, // gob.Decoder.Decode
    marshal: FieldMap -> Option<seq<Byte>>,           // json.Marshal
    unmarshal: seq<Byte> -> Option<FieldMap>          // json.Unmarshal
  )
}

=== FILE: wrappers.dfy ===
/** The optional value used for every Go call that returns `nil` or an error. */
module Wrappers {

  datatype Option<+T> = None | Some(value: T)
}
